=== FILE: README.md ===
# Chat relay core, modelled in Dafny

A model of the TCP chat relay in `server.js`. The relay gives every new
connection a unique guest name, `GuestN`. It relays each line a session sends
to every other live session. It understands five slash commands:
`/w` and `/whisper`, `/username`, `/kick` (with the operator password) and
`/clientlist`. When a socket ends or closes, the relay removes the session and
announces the departure.

The relay is modelled as a pure state machine:

- `Registry.Server` is the in-memory state. It holds:
  - the session registry `clients` (socket to current name);
  - the name directory `byName` (name to socket);
  - the guest counter `nextId`;
  - `accepted`, the name each socket was given when it connected.
- Sockets are handles numbered in accept order. A JavaScript `Map` iterates in
  insertion order, and a socket is inserted into `clients` once. So
  `broadcast` visits sessions in ascending handle order, and `Outbox.Fanout`
  does the same.
- Every handler returns an `Outbox.Step`, which holds:
  - the next state;
  - the lines written, as `send(sock, msg)` deliveries in order;
  - the sockets `end()` was called on;
  - the chat-log and server-log lines, without timestamps.

The modules follow the source:

- `Text`: JavaScript's `trim`, `split(/\s+/)`, `split(c)`, `join` and
  `toLowerCase`, over the ECMAScript white-space set.
- `Decimal`: how `${n}` renders a counter.
- `Order`: the default `Array.prototype.sort` order.
- `Registry`: the maps, `nextGuest`/`nameInUse` allocation, `validUsername`
  and `setClientName`.
- `Outbox`: `send` and `broadcast`.
- `Protocol`: splitting a data chunk into lines, and `parseCommand`.
- `Commands`: the five handlers and the dispatcher.
- `Lifecycle`: the connection handler, the per-line relay, `cleanup`, the
  `error`/`end`/`close` listeners, and a run over a sequence of socket events.

The invariant `Registry.Consistent` says that registry and directory agree:

- every live session's name maps back to it;
- every directory entry names a live session that holds that name;
- every live handle was accepted;
- every held name is non-empty ASCII.

Every state-changing operation keeps it. `Lifecycle.Run` returns the trace of
states a sequence of events passes through. It proves that each event moves
the server from one trace state to the next exactly as the matching handler
does (`Lifecycle.EventStep`), and that the invariant holds at the end.

Chat lines carry the name the sender had **when it connected**. This is the
`name` variable the connection handler's closures capture, and a later
`/username` does not change it. The model keeps this behaviour
(`Lifecycle.Chat` uses `accepted`, and `Lifecycle.ChatKeepsConnectName` states
it). Whispers, renames, kicks and departures use the current name.

A successful `/kick` sends its notice and records the target in `closes`. It
does not touch the registry. The target leaves the registry only when its
`end` or `close` event is handled by `Lifecycle.Cleanup`, as in the source.
`Lifecycle.KickThenClose` states the combined effect.

## Model

| member | source | states |
|---|---|---|
| `Registry.NameOf` | server.js:47 | The acting session's current name, or `Unknown` for a socket that is not live. |
| `Registry.GuestName` | server.js:26 | The name for counter value `k` is `Guest` followed by a decimal numeral that reads back as `k` and has no leading zero. |
| `Registry.GuestNameInjective` | server.js:26 | Different counter values produce different guest names. |
| `Registry.AllocateGuest` | server.js:119-120 | The allocation loop settles on the first counter value at or above `nextId` whose guest name is free. That name is free, and every name it skipped was taken. |
| `Registry.ValidUsername` | server.js:63 | The pattern accepts 3 to 20 characters, each a letter, a digit, `_` or `-`. A name that passes is ASCII with no white space, so it can be typed as a single command argument. |
| `Registry.ValidUsernameAscii` | server.js:63 | A name that passes the username pattern is non-empty ASCII, so the registry invariant can hold it. |
| `Registry.SetClientName` | server.js:28-36 | Fails and changes nothing for a socket that is not live. Otherwise the socket takes the new name and the directory gives the new name to it. On a consistent state, the directory loses exactly the old name and gains exactly the new one, every other entry is unchanged, and the invariant holds if the new name was free. |
| `Registry.SetClientNameUndo` | server.js:28-36 | Renaming to a free name and then back restores registry and directory exactly. |
| `Registry.RegisterConsistent` | server.js:121-122 | Registering a new socket under a free, well-formed name keeps registry and directory in agreement. |
| `Registry.RemoveConsistent` | server.js:149-150 | Deleting a live session and its name keeps registry and directory in agreement. |
| `Registry.LiveCount` | server.js:10-13 | On a consistent state the directory has as many entries as there are live sessions. |
| `Decimal.ValueShow` | server.js:26 | Reading back the decimal numeral of a counter gives the counter. |
| `Decimal.ShowInjective` | server.js:26 | Different counters have different numerals. |
| `Text.Trim` | server.js:132 | The result has no blank end and only holds characters of the input. It is empty exactly when the input is all white space. It keeps a non-blank first character, and it is the input itself when the input has no blank end. |
| `Text.TrimCutsBlankEnds` | server.js:132 | Trimming removes exactly an all-blank prefix and an all-blank suffix. |
| `Text.SplitSpace` | server.js:40 | `split(/\s+/)` yields at least one field, no field holds white space, and the first field is a prefix of the input. |
| `Text.SplitSpaceJoin` | server.js:40 | Splitting on white space undoes joining non-empty space-free tokens with single spaces. |
| `Text.SplitSpaceTrimmed` | server.js:40 | Every field of a non-empty trimmed line is non-empty. |
| `Text.SplitSpaceSpaced` | server.js:40 | Splitting on white space gives back the tokens, whatever non-empty runs of white space separate them. |
| `Text.TrimPadded` | server.js:132 | Trimming a non-empty line with no blank end, with any white space before and after it, gives back exactly that line. |
| `Text.JoinWords` | server.js:56 | Joining tokens with single spaces gives a non-empty line with no blank end that starts like its first token. |
| `Text.SplitOn` | server.js:130 | `split('\n')` yields pieces without `\n` that join back to the input. |
| `Text.SplitOnJoin` | server.js:130 | Splitting on a separator undoes joining pieces that do not contain it. |
| `Text.Lower` | server.js:41 | `toLowerCase` works character by character: the result has the input's length, and each character is lowered on its own. |
| `Text.LowerIdempotent` | server.js:41 | Lower-casing a second time changes nothing. |
| `Protocol.NormalizeNewlines` | server.js:130 | After the replacement no CR remains, and the text is no longer than before. |
| `Protocol.NormalizeCRLF` | server.js:130 | Lines sent with CR LF terminators normalise to the same text sent with LF. |
| `Protocol.NormalizePair` | server.js:130 | A CR LF pair becomes a single LF, and the text before it is kept as it was. |
| `Protocol.NormalizeLoneCR` | server.js:130 | A CR that is not followed by LF becomes an LF, and the text before it is kept as it was. |
| `Protocol.NormalizeCR` | server.js:130 | Lines sent with lone CR terminators normalise to the same text sent with LF. |
| `Protocol.DropEmpty` | server.js:130 | `filter(Boolean)` keeps only non-empty pieces and adds no characters. It changes nothing when no piece is empty. |
| `Protocol.DropEmptyAppend` | server.js:130 | `filter(Boolean)` works piece by piece: filtering two lists one after the other gives the filtered first list followed by the filtered second. |
| `Protocol.TrimLines` | server.js:131-133 | Every line kept is non-empty and has no blank end, no more lines come out than went in, and no character is added. It changes nothing when every line is already non-empty and trimmed. |
| `Protocol.TrimLinesAppend` | server.js:131-133 | Trimming and skipping blank lines works line by line, in order: on two lists one after the other it gives the result for the first followed by the result for the second. |
| `Protocol.Lines` | server.js:130-133 | Every line processed from a chunk is non-empty, has no blank end, and holds no CR or LF. |
| `Protocol.FieldsRoundTrip` | server.js:130-133 | Well-formed lines joined with LF are recovered exactly from the normalised text. |
| `Protocol.LinesRoundTrip` | server.js:130-133 | Well-formed lines sent one per LF come out of a chunk as exactly those lines, in order. |
| `Protocol.LinesRoundTripCRLF` | server.js:130-133 | The same holds for lines sent one per CR LF. |
| `Protocol.NoisyFields` | server.js:130-133 | Take well-formed lines, add blank pieces anywhere and white space around each line. Dropping empty pieces and trimming gives back exactly those lines, in order. |
| `Protocol.LinesNoisyRoundTrip` | server.js:129-133 | Take well-formed lines, typed with blank lines among them and white space around each. Sent with LF, CR LF or lone CR terminators, they come out of a chunk as exactly those lines, in order. |
| `Protocol.ParseCommand` | server.js:38-42 | There is no command exactly when the line does not start with `/`. Otherwise the command name starts with `/` and holds no white space, and every argument is a non-empty space-free token. |
| `Protocol.ParseRoundTrip` | server.js:38-42 | A command typed as a name and space-separated arguments parses back to the lower-cased name and exactly those arguments. |
| `Protocol.ParseSpacedRoundTrip` | server.js:38-42 | A command name followed by its arguments parses back to the lower-cased name and exactly those arguments. This holds for any non-empty runs of white space between them and any white space after the last. |
| `Order.LessTransitive` | server.js:93 | The sort order is transitive. |
| `Order.LessTotal` | server.js:93 | Any two different names are ordered one way or the other. |
| `Order.LeastExists` | server.js:93 | Every non-empty set of names has a name that no other name of the set sorts before. |
| `Order.LeastUnique` | server.js:93 | A set of names has only one such least name. |
| `Order.Sort` | server.js:93 | Lists a set of names in strictly ascending order. Every member appears exactly once and nothing else appears. |
| `Order.SortedUnique` | server.js:93 | A set has only one strictly ascending listing, so the listing is determined by the directory alone. |
| `Outbox.FanoutSound` | server.js:23 | A fan-out writes only the message, only to live sockets in range other than the excluded one, and in ascending order. |
| `Outbox.FanoutComplete` | server.js:23 | A fan-out reaches every live socket in range other than the excluded one. |
| `Outbox.Broadcast` | server.js:23 | `broadcast` writes the message once to every live session except the excluded one and to nobody else, in connection order. |
| `Commands.WhisperMessageNonEmpty` | server.js:56-57 | The message tokens the parser produces never trim to the empty string, so the empty-message refusal cannot be reached from a parsed line. |
| `Commands.Whisper` | server.js:46-61 | The refusals come in source order: too few arguments, unknown target, the sender itself. Each goes to the sender alone. Otherwise exactly two lines go out, to the target and back to the sender, with the joined message. The state never changes. |
| `Commands.Username` | server.js:65-76 | The checks run in order: one argument, valid pattern, different from the current name, not already held. The first that fails answers the sender alone and changes nothing. A rename that passes is `setClientName`: it is announced to every other live session and confirmed to the renamer, and the invariant is kept. |
| `Commands.Rename` | server.js:72-75 | The success path frees the old name and gives the new one to the session, moving no other entry. It announces the rename to every live session except the renamer, then confirms to the renamer. |
| `Commands.UsernameUndo` | server.js:65-76 | Renaming to a fresh name and then back to the original restores registry and directory exactly. |
| `Commands.Kick` | server.js:78-90 | The refusals come in order: argument count, then password, and only then the target lookup and the self check. A kick that passes sends the notice to the target and asks for exactly that connection to close. It never changes the registry. |
| `Commands.ClientList` | server.js:92-97 | No state change and no close. The sender gets one reply: `Connected clients (<n>): ` followed by the directory names joined with `, `. The names are listed strictly ascending, each exactly once and nothing else, and `<n>` is the directory size. The server log gets one line with the same count. On a consistent state the count is the number of live sessions. |
| `Commands.HandleCommand` | server.js:99-111 | `/w` and `/whisper` give exactly the whisper handler's step, `/username` the rename handler's, `/kick` the kick handler's, and `/clientlist` the listing's, with its arguments ignored. Any other name sends exactly `Unknown command: <name>` and logs an error line. Only `/username` changes the state, only `/kick` closes a connection, every command writes one server-log line and no chat line, and the invariant is kept. |
| `Lifecycle.Accept` | server.js:118-127 | The new socket gets the first free guest name. Both maps record it, nothing else moves, and the counter moves to just past the value used. The newcomer is greeted, and every other live session hears of the arrival. |
| `Lifecycle.Connect` | server.js:118-127 | Runs the allocation loop, then accepts with the value it found. |
| `Lifecycle.Chat` | server.js:138-140 | A chat line is prefixed with the sender's connect-time name, logged, and delivered once to every other live session. A sender that is alone reaches nobody. |
| `Lifecycle.Cleanup` | server.js:145-153 | Does nothing for a session that is already gone. Otherwise the session leaves the registry, and its name leaves the directory if the directory still gives the name to it. Every remaining live session, never the departed one, hears that it left. |
| `Lifecycle.CleanupIdempotent` | server.js:156-157 | `end` followed by `close`: the second cleanup does nothing. |
| `Lifecycle.AcceptThenLeave` | server.js:118-153 | A session that connects and then leaves restores registry and directory. Only the socket list and the guest counter remember it. |
| `Lifecycle.KickThenClose` | server.js:86-88 | A successful kick, followed by the cleanup that the target's `end` or `close` event runs, removes the target's session and name and nothing else. The others hear that the target left under its current name, the chat log records the reason, and the invariant holds. |
| `Lifecycle.ChatKeepsConnectName` | server.js:138 | After a rename the directory knows the session by its new name, but its chat is still prefixed with the connect-time name. |
| `Lifecycle.SocketError` | server.js:155 | A socket error writes one chat-log line under the connect-time name and nothing else. |
| `Lifecycle.HandleLine` | server.js:134-141 | A line that starts with `/` gives exactly the step of the command it parses to. Any other line gives exactly the chat step. Either way exactly one log line is written, the socket list and counter never change, and the invariant is kept. |
| `Lifecycle.Replay` | server.js:131-142 | Lines are handled one after another, each from the state the previous one left. Exactly one log line is written per line, the socket list and counter never change, and the invariant is kept. |
| `Lifecycle.HandleData` | server.js:129-143 | The loop over a chunk gives exactly the replay of the chunk's lines, as the line protocol splits them, in order. |
| `Lifecycle.HandleEvent` | server.js:115-157 | A guest number is reported exactly when the event is a connection. It is the first free counter value at or past the counter, the step is the accept with it, and the counter moves just past it. Data is the replay of the chunk's lines. `end` and `close` are cleanup with reason `ended` and `disconnected`. An error is the error listener's log line. Data and errors for a handle never accepted do nothing. Only a connection changes the socket list or the counter, and the invariant is kept. |
| `Lifecycle.Advance` | server.js:115-157 | One event moves the server exactly as `EventStep` describes it: a connection is accepted under the first free counter value, data is replayed line by line, `end` and `close` clean up with reason `ended` and `disconnected`, and an error leaves the state alone. The counter value is appended to the issued guest numbers only for a connection, and the invariant and the guest-number bookkeeping are kept. |
| `Lifecycle.Run` | server.js:115-158 | The returned trace starts at the start-up state and ends at the final state, and event `i` takes trace state `i` to state `i + 1` as `EventStep` describes, reporting the guest number it issued. At the end, registry and directory agree. The guest numbers handed out strictly increase, so none is reused, and every socket is named after its number. |
| `Lifecycle.FirstGuestConnects` | server.js:118-127 | The first connection to a fresh server is `Guest1`, is welcomed, and is announced to nobody. |
| `Lifecycle.SecondGuestConnects` | server.js:118-127 | The second is `Guest2`, welcomed and announced to the first. |
| `Lifecycle.TwoGuestsChat` | server.js:138-140 | With two guests, the first one's `hello` reaches only the second, as `Guest1: hello`. |
| `Lifecycle.TwoGuestsWhisper` | server.js:58-59 | The whisper handler, given the arguments `Guest1` and `hi` by the second guest, sends `(whisper) Guest2: hi` to the first guest and `(whisper to Guest1) Guest2: hi` back to the sender. |
| `Lifecycle.WhisperLineParses` | server.js:38-42 | The typed line `/w Guest1 hi` parses to the command `/w` with the arguments `Guest1` and `hi`. |
| `Lifecycle.TwoGuestsWhisperLine` | server.js:134-136 | The second guest typing the line `/w Guest1 hi` produces exactly those two whisper lines. |
| `Lifecycle.TwoGuestsLeave` | server.js:145-153 | When the first guest leaves, only the second hears it, and only `Guest2` remains in the directory. |

## Left out

- Sockets, encodings and the network are not modelled. A `Step` lists the writes, and the exceptions that `send` and `end()` swallow are not modelled.
- Log files, their timestamps and `fs` errors are not modelled; the log lines are kept in order without timestamps.
- Configuration from the environment and argv is not modelled: the port, the log paths, and the default operator password. The password is a parameter of the handlers.
- The listening socket's `listening`/`error` handlers, console output and the SIGINT shutdown are left out. They touch no state the core reads.
- The order in which the runtime delivers socket events is not modelled. `Lifecycle.Run` takes any sequence of events, and the `end()` a kick calls comes back as an ordinary `End` or `Close` event.
- An event for a handle never accepted cannot happen and is treated as a no-op.
- `client.js` is not part of this model.
- Regular expressions are replaced by explicit definitions: white space is the ECMAScript WhiteSpace and LineTerminator set, and the username pattern is a character-class check with a length bound.
- Text.Lower: lowers ASCII capitals and the KELVIN SIGN only, where `toLowerCase` follows the full Unicode case mapping. The command names it is used on are compared with ASCII names, and only a name with such a capital would be lowered differently.
- Protocol.ParseCommand: lower-cases ASCII capitals and the KELVIN SIGN only. Other characters with a Unicode lower-case mapping are left as they are. Those never lower-case to a known command name. So only the command name inside the `Unknown command` reply (server.js:108) and inside the server-log error line (server.js:109) can differ.
- Order.Sort: compares by code point, where JavaScript compares UTF-16 units. The two orders agree on the ASCII names the invariant allows.
- Registry.AllocateGuest: the counter is an unbounded natural. JavaScript numbers lose integer precision above 2^53, which the model does not represent.

=== FILE: commands.dfy ===
/** The command handlers `handleWhisper`, `handleUsername`, `handleKick`,
    `handleClientList` and the dispatcher `handleCommand` (server.js:44-111).
    Each handler decides from the state before it runs; only `/username`
    changes the state, and only `/kick` asks for a connection to be closed. */
module Commands {
  import opened Text
  import opened Decimal
  import opened Order
  import opened Registry
  import opened Outbox
  import opened Protocol

  const WhisperUsage := "Usage: /w <username> <message>"
  const WhisperSelf := "You cannot whisper to yourself"
  const WhisperEmpty := "Whisper message cannot be empty"
  const UsernameUsage := "Usage: /username <newName>"
  const UsernameInvalid := "Invalid username. Use 3-20 chars: letters, numbers, _ or -"
  const UsernameSame := "New username must be different from current username"
  const UsernameTaken := "That username is already in use"
  const KickUsage := "Usage: /kick <username> <adminPassword>"
  const KickWrongPassword := "Incorrect admin password"
  const KickSelf := "You cannot kick yourself"
  const KickNotice := "You have been kicked from the chat by an administrator."

  function NoSuchUser(name: string): string
  {
    "No such user: " + name
  }

  /** A refused command: its message to the sender, an `ERROR` line in the
      server log, and nothing else. */
  function Refuse(st: Server, sid: Sid, actor: string, command: string, m: string): Step
  {
    Step(st, [Delivery(sid, m)], [], [], [actor + " " + command + " ERROR: " + m])
  }

  /** `s` answers the sender with `m` alone and changes nothing. */
  predicate Refused(s: Step, st: Server, sid: Sid, m: string)
  {
    s.next == st && s.out == [Delivery(sid, m)] && s.closes == [] && s.chatLog == []
  }

  // ----- /w, /whisper ---------------------------------------------------------

  /** The whisper's arguments name a live session other than the sender. */
  predicate WhisperTarget(st: Server, sid: Sid, args: seq<string>)
  {
    |args| >= 2 && args[0] in st.byName && st.byName[args[0]] != sid
  }

  /** The message tokens the parser produces never join and trim to the empty
      string, so the empty-message refusal of `handleWhisper` cannot be reached
      from a parsed command. */
  lemma {:induction false} WhisperMessageNonEmpty(args: seq<string>)
    ensures |args| >= 2 && Words(args) ==>
              Trim(Join(args[1..], " ")) == Join(args[1..], " ") && |Join(args[1..], " ")| > 0
  {
    if |args| >= 2 && Words(args) {
      JoinWords(args[1..]);
    }
  }

  /** `handleWhisper`: refusals in order (fewer than two arguments, unknown
      target, the sender itself, an empty message) go to the sender alone;
      otherwise exactly two lines go out, to the target and back to the sender.
      Nobody else ever hears of it, and the state never changes. */
  function Whisper(st: Server, sid: Sid, args: seq<string>): (s: Step)
    ensures s.next == st && s.closes == [] && s.chatLog == [] && |s.serverLog| == 1
    ensures 1 <= |s.out| <= 2 && s.out[|s.out| - 1].to == sid
    ensures |s.out| == 2 ==> WhisperTarget(st, sid, args) && s.out[0].to == st.byName[args[0]]
    ensures |args| < 2 ==> Refused(s, st, sid, WhisperUsage)
    ensures |args| >= 2 && args[0] !in st.byName ==> Refused(s, st, sid, NoSuchUser(args[0]))
    ensures |args| >= 2 && args[0] in st.byName && st.byName[args[0]] == sid ==> Refused(s, st, sid, WhisperSelf)
    ensures WhisperTarget(st, sid, args) && Words(args) ==>
              var msg := Join(args[1..], " ");
              s.out == [Delivery(st.byName[args[0]], "(whisper) " + NameOf(st, sid) + ": " + msg),
                        Delivery(sid, "(whisper to " + args[0] + ") " + NameOf(st, sid) + ": " + msg)]
  {
    var from := NameOf(st, sid);
    if |args| < 2 then Refuse(st, sid, from, "/w", WhisperUsage)
    else
      var target := args[0];
      if target !in st.byName then Refuse(st, sid, from, "/w", NoSuchUser(target))
      else if st.byName[target] == sid then Refuse(st, sid, from, "/w", WhisperSelf)
      else
        WhisperMessageNonEmpty(args);
        var message := Trim(Join(args[1..], " "));
        if message == "" then Refuse(st, sid, from, "/w", WhisperEmpty)
        else
          Step(st,
               [Delivery(st.byName[target], "(whisper) " + from + ": " + message),
                Delivery(sid, "(whisper to " + target + ") " + from + ": " + message)],
               [], [], [from + " /w OK -> " + target + ": " + message])
  }

  // ----- /username ------------------------------------------------------------

  /** The rename passes all four checks of `handleUsername`. */
  predicate RenameAccepted(st: Server, sid: Sid, args: seq<string>)
  {
    |args| == 1 && ValidUsername(args[0]) && args[0] != NameOf(st, sid) && args[0] !in st.byName
  }

  /** `st'` is `st` with session `sid` renamed to `n`: the old name is free,
      `n` leads to `sid`, and no other entry of either map moved. */
  ghost predicate Renamed(st: Server, st': Server, sid: Sid, n: string)
    requires sid in st.clients
  {
    && st'.accepted == st.accepted && st'.nextId == st.nextId
    && st'.clients == st.clients[sid := n]
    && st'.byName.Keys == st.byName.Keys - {st.clients[sid]} + {n}
    && n in st'.byName && st'.byName[n] == sid
    && forall m :: m in st'.byName && m != n ==> st'.byName[m] == st.byName[m]
  }

  /** `handleUsername`: the checks run in order (one argument, well-formed,
      different from the current name, not held) and the first that fails
      answers the sender alone and changes nothing. A rename that passes moves
      the session to its new name, frees the old one, announces it to every
      other live session and confirms it to the renamer. */
  function Username(st: Server, sid: Sid, args: seq<string>): (s: Step)
    ensures s.closes == [] && s.chatLog == [] && |s.serverLog| == 1
    ensures s.next.accepted == st.accepted && s.next.nextId == st.nextId
    ensures |args| != 1 ==> Refused(s, st, sid, UsernameUsage)
    ensures |args| == 1 && !ValidUsername(args[0]) ==> Refused(s, st, sid, UsernameInvalid)
    ensures |args| == 1 && ValidUsername(args[0]) && args[0] == NameOf(st, sid) ==>
              Refused(s, st, sid, UsernameSame)
    ensures |args| == 1 && ValidUsername(args[0]) && args[0] != NameOf(st, sid) && args[0] in st.byName ==>
              Refused(s, st, sid, UsernameTaken)
    ensures s.next != st ==> RenameAccepted(st, sid, args) && sid in st.clients
    ensures RenameAccepted(st, sid, args) ==> s.next == SetClientName(st, sid, args[0]).0
    ensures RenameAccepted(st, sid, args) ==>
              && |s.out| >= 1
              && s.out[|s.out| - 1] == Delivery(sid, "You successfully changed your username to " + args[0])
              && (Consistent(st) ==>
                    SendsTo(s.out[..|s.out| - 1], NameOf(st, sid) + " is now known as " + args[0],
                            st.clients.Keys - {sid}))
    ensures RenameAccepted(st, sid, args) && sid in st.clients && Consistent(st) ==>
              Renamed(st, s.next, sid, args[0]) && Consistent(s.next)
    ensures Consistent(st) ==> Consistent(s.next)
  {
    var oldName := NameOf(st, sid);
    if |args| != 1 then Refuse(st, sid, oldName, "/username", UsernameUsage)
    else
      var newName := args[0];
      if !ValidUsername(newName) then Refuse(st, sid, oldName, "/username", UsernameInvalid)
      else if newName == oldName then Refuse(st, sid, oldName, "/username", UsernameSame)
      else if newName in st.byName then Refuse(st, sid, oldName, "/username", UsernameTaken)
      else Rename(st, sid, newName)
  }

  /** The success path of `handleUsername` (server.js:72-75): `setClientName`,
      the announcement to everyone but the renamer, then the confirmation. */
  function Rename(st: Server, sid: Sid, newName: string): (s: Step)
    requires ValidUsername(newName) && newName !in st.byName
    ensures s.closes == [] && s.chatLog == [] && |s.serverLog| == 1
    ensures s.next.accepted == st.accepted && s.next.nextId == st.nextId
    ensures sid !in st.clients ==> s.next == st
    ensures s.next == SetClientName(st, sid, newName).0
    ensures |s.out| >= 1
    ensures s.out[|s.out| - 1] == Delivery(sid, "You successfully changed your username to " + newName)
    ensures Consistent(st) ==>
              SendsTo(s.out[..|s.out| - 1], NameOf(st, sid) + " is now known as " + newName,
                      st.clients.Keys - {sid})
    ensures sid in st.clients && Consistent(st) ==> Renamed(st, s.next, sid, newName)
    ensures Consistent(st) ==> Consistent(s.next)
  {
    RenameFacts(st, sid, newName);
    var oldName := NameOf(st, sid);
    var st' := SetClientName(st, sid, newName).0;
    assert st'.clients.Keys == st.clients.Keys;
    var confirm := Delivery(sid, "You successfully changed your username to " + newName);
    var announce := Broadcast(st', oldName + " is now known as " + newName, sid);
    var out := announce + [confirm];
    assert out[..|out| - 1] == announce;
    Step(st', out, [], [], [oldName + " /username OK -> " + newName])
  }

  lemma {:induction false} RenameFacts(st: Server, sid: Sid, newName: string)
    requires ValidUsername(newName) && newName !in st.byName
    ensures var st' := SetClientName(st, sid, newName).0;
            && st'.clients.Keys == st.clients.Keys
            && (Consistent(st) ==> Consistent(st'))
            && (sid in st.clients && Consistent(st) ==> Renamed(st, st', sid, newName))
  {
    ValidUsernameAscii(newName);
  }

  /** Renaming to a fresh name and then back to the original name restores
      registry and directory exactly. */
  lemma {:induction false} UsernameUndo(st: Server, sid: Sid, newName: string)
    requires Consistent(st) && sid in st.clients
    requires RenameAccepted(st, sid, [newName]) && ValidUsername(st.clients[sid])
    ensures Username(Username(st, sid, [newName]).next, sid, [st.clients[sid]]).next == st
  {
    var original := st.clients[sid];
    var once := Username(st, sid, [newName]);
    assert once.next == SetClientName(st, sid, newName).0;
    assert Renamed(st, once.next, sid, newName);
    assert original in st.byName && st.byName[original] == sid;
    assert original !in once.next.byName;
    assert RenameAccepted(once.next, sid, [original]);
    assert Username(once.next, sid, [original]).next == SetClientName(once.next, sid, original).0;
    SetClientNameUndo(st, sid, newName);
  }

  // ----- /kick ----------------------------------------------------------------

  /** The kick names the operator password and a live session other than the
      sender. */
  predicate KickAllowed(st: Server, sid: Sid, args: seq<string>, password: string)
  {
    |args| == 2 && args[1] == password && args[0] in st.byName && st.byName[args[0]] != sid
  }

  /** `handleKick`: exactly two arguments, then the password, and only then the
      target lookup and the self check; each refusal answers the sender alone.
      A kick that passes sends the notice to the target and asks for its
      connection to be closed; the registry is left to the cleanup the close
      triggers. */
  function Kick(st: Server, sid: Sid, args: seq<string>, password: string): (s: Step)
    ensures s.next == st && s.chatLog == [] && |s.serverLog| == 1 && |s.out| == 1
    ensures |args| != 2 ==> Refused(s, st, sid, KickUsage)
    ensures |args| == 2 && args[1] != password ==> Refused(s, st, sid, KickWrongPassword)
    ensures |args| == 2 && args[1] == password && args[0] !in st.byName ==>
              Refused(s, st, sid, NoSuchUser(args[0]))
    ensures |args| == 2 && args[1] == password && args[0] in st.byName && st.byName[args[0]] == sid ==>
              Refused(s, st, sid, KickSelf)
    ensures s.closes != [] <==> KickAllowed(st, sid, args, password)
    ensures KickAllowed(st, sid, args, password) ==>
              s.out == [Delivery(st.byName[args[0]], KickNotice)] && s.closes == [st.byName[args[0]]]
    ensures KickAllowed(st, sid, args, password) && Consistent(st) ==>
              s.serverLog == [NameOf(st, sid) + " /kick OK -> " + args[0]]
  {
    var admin := NameOf(st, sid);
    if |args| != 2 then Refuse(st, sid, admin, "/kick", KickUsage)
    else
      var targetName := args[0];
      var pw := args[1];
      if pw != password then Refuse(st, sid, admin, "/kick", KickWrongPassword)
      else if targetName !in st.byName then Refuse(st, sid, admin, "/kick", NoSuchUser(targetName))
      else
        var target := st.byName[targetName];
        if target == sid then Refuse(st, sid, admin, "/kick", KickSelf)
        else
          var kickedName := if target in st.clients && st.clients[target] != "" then st.clients[target] else targetName;
          Step(st, [Delivery(target, KickNotice)], [target], [], [admin + " /kick OK -> " + kickedName])
  }

  // ----- /clientlist --------------------------------------------------------

  /** `handleClientList`: one reply to the sender listing every name the
      directory holds, ascending and each once (by `SortedUnique` the only list
      that fits), with their count, and one server-log line; the state is
      untouched. On a consistent state the names are exactly the live
      sessions' names. */
  function ClientList(st: Server, sid: Sid): (s: Step)
    ensures s.next == st && s.closes == [] && s.chatLog == []
    ensures exists names ::
              && Sorted(names)
              && (forall n :: n in names <==> n in st.byName)
              && s.out == [Delivery(sid, "Connected clients (" + Show(|st.byName|) + "): " + Join(names, ", "))]
    ensures s.serverLog == [NameOf(st, sid) + " /clientlist OK (" + Show(|st.byName|) + " users)"]
    ensures Consistent(st) ==> |st.byName| == |st.clients|
  {
    DirectorySize(st);
    var names := Sort(st.byName.Keys);
    Step(st, [Delivery(sid, "Connected clients (" + Show(|names|) + "): " + Join(names, ", "))],
         [], [], [NameOf(st, sid) + " /clientlist OK (" + Show(|names|) + " users)"])
  }

  lemma {:induction false} DirectorySize(st: Server)
    ensures Consistent(st) ==> |st.byName| == |st.clients|
  {
    if Consistent(st) {
      LiveCount(st);
    }
  }

  // ----- handleCommand --------------------------------------------------------

  predicate IsKnownCommand(name: string)
  {
    name == "/w" || name == "/whisper" || name == "/username" || name == "/kick" || name == "/clientlist"
  }

  /** `handleCommand`: `/w` and `/whisper` whisper, `/username` renames, `/kick`
      kicks, `/clientlist` lists (ignoring its arguments); any other name gets
      `Unknown command: <name>` back and an `ERROR` line in the server log, and
      nothing else happens. Only a rename changes the state, only a kick closes
      a connection, every command writes one server-log line and no chat line,
      and consistency is kept throughout. */
  function HandleCommand(st: Server, sid: Sid, c: Command, password: string): (s: Step)
    ensures s.next.accepted == st.accepted && s.next.nextId == st.nextId
    ensures Consistent(st) ==> Consistent(s.next)
    ensures c.name != "/username" ==> s.next == st
    ensures c.name != "/kick" ==> s.closes == []
    ensures s.chatLog == [] && |s.serverLog| == 1
    ensures c.name == "/w" || c.name == "/whisper" ==> s == Whisper(st, sid, c.args)
    ensures c.name == "/username" ==> s == Username(st, sid, c.args)
    ensures c.name == "/kick" ==> s == Kick(st, sid, c.args, password)
    ensures c.name == "/clientlist" ==> s == ClientList(st, sid)
    ensures !IsKnownCommand(c.name) ==>
              && s.out == [Delivery(sid, "Unknown command: " + c.name)]
              && s.serverLog == [NameOf(st, sid) + " " + c.name + " ERROR: unknown command"]
  {
    match c.name
    case "/w" => Whisper(st, sid, c.args)
    case "/whisper" => Whisper(st, sid, c.args)
    case "/username" => Username(st, sid, c.args)
    case "/kick" => Kick(st, sid, c.args, password)
    case "/clientlist" => ClientList(st, sid)
    case _ =>
      Step(st, [Delivery(sid, "Unknown command: " + c.name)], [], [],
           [NameOf(st, sid) + " " + c.name + " ERROR: unknown command"])
  }
}

=== FILE: decimal.dfy ===
/** Decimal rendering of a counter, as a JavaScript template literal `${n}`
    renders a non-negative integer, and its inverse. */
module Decimal {

  predicate IsDigit(c: char)
  {
    '0' <= c <= '9'
  }

  predicate AllDigits(s: string)
  {
    forall i :: 0 <= i < |s| ==> IsDigit(s[i])
  }

  function DigitChar(d: nat): (c: char)
    requires d < 10
    ensures IsDigit(c)
    ensures c as int - '0' as int == d
  {
    (d + '0' as int) as char
  }

  /** The shortest decimal numeral of `n`: digits only, no leading zero. */
  function Show(n: nat): (r: string)
    ensures |r| >= 1
    ensures AllDigits(r)
    ensures r[0] == '0' ==> n == 0
    decreases n
  {
    if n < 10 then [DigitChar(n)]
    else Show(n / 10) + [DigitChar(n % 10)]
  }

  /** The number a string of digits denotes. */
  function Value(s: string): nat
    requires AllDigits(s)
  {
    if |s| == 0 then 0
    else Value(s[..|s| - 1]) * 10 + (s[|s| - 1] as int - '0' as int)
  }

  /** Reading back a rendered counter gives the counter. */
  lemma {:induction false} ValueShow(n: nat)
    ensures Value(Show(n)) == n
    decreases n
  {
    if n >= 10 {
      var s := Show(n);
      assert s[..|s| - 1] == Show(n / 10);
      ValueShow(n / 10);
    }
  }

  /** Distinct counters render differently. */
  lemma {:induction false} ShowInjective(a: nat, b: nat)
    requires Show(a) == Show(b)
    ensures a == b
  {
    ValueShow(a);
    ValueShow(b);
  }
}

=== FILE: lifecycle.dfy ===
/** The per-connection lifecycle (server.js:115-158): accepting a connection,
    relaying its input line by line, and cleaning up when it ends or closes. */
module Lifecycle {
  import opened Text
  import opened Wrappers
  import opened Registry
  import opened Outbox
  import opened Protocol
  import opened Commands

  /** Which socket event triggered the cleanup (server.js:156-157). */
  datatype Reason = Ended | Disconnected

  function ReasonText(r: Reason): string
  {
    match r
    case Ended => "ended"
    case Disconnected => "disconnected"
  }

  function Welcome(name: string): string
  {
    "Welcome, " + name + "! You are connected to the chat server."
  }

  /** Accepting a connection once the allocation loop has settled on counter
      value `id` (server.js:119-127): the new handle gets the guest name, which
      was free, both maps record it and nothing else in them moves, the counter
      moves to just past `id`, the newcomer is greeted and every other live
      session hears of the arrival. */
  function Accept(st: Server, id: nat): (s: Step)
    requires FirstFreeGuest(st.byName, st.nextId, id)
    ensures var sid := |st.accepted|;
            var name := GuestName(id);
            && name !in st.byName
            && st.nextId <= id && s.next.nextId == id + 1
            && s.next.accepted == st.accepted + [name]
            && s.next.clients == st.clients[sid := name]
            && s.next.byName == st.byName[name := sid]
            && |s.out| >= 1 && s.out[0] == Delivery(sid, Welcome(name))
            && (Consistent(st) ==> sid !in st.clients && SendsTo(s.out[1..], name + " has joined the chat.", st.clients.Keys))
            && s.closes == [] && s.chatLog == [name + " connected"] && s.serverLog == []
    ensures Consistent(st) ==> Consistent(s.next)
  {
    var sid := |st.accepted|;
    var name := GuestName(id);
    GuestNameAscii(id);
    var st' := Server(st.accepted + [name], st.clients[sid := name], st.byName[name := sid], id + 1);
    var out := [Delivery(sid, Welcome(name))] + Broadcast(st', name + " has joined the chat.", sid);
    assert out[1..] == Broadcast(st', name + " has joined the chat.", sid);
    AcceptFacts(st, name, id + 1);
    Step(st', out, [], [name + " connected"], [])
  }

  lemma {:induction false} AcceptFacts(st: Server, name: string, nextId: nat)
    requires name !in st.byName && |name| > 0 && IsAscii(name)
    ensures var sid := |st.accepted|;
            var st' := Server(st.accepted + [name], st.clients[sid := name], st.byName[name := sid], nextId);
            Consistent(st) ==> && Consistent(st')
                               && sid !in st.clients
                               && st'.clients.Keys - {sid} == st.clients.Keys
                               && (forall s :: s in st'.clients ==> s < |st'.accepted|)
  {
    if Consistent(st) {
      RegisterConsistent(st, name, nextId);
    }
  }

  /** The connection handler's allocation and registration: picks the first
      free guest counter value from `nextId` on, then accepts. */
  method Connect(st: Server) returns (id: nat, s: Step)
    ensures FirstFreeGuest(st.byName, st.nextId, id)
    ensures s == Accept(st, id)
  {
    id := AllocateGuest(st.byName, st.nextId);
    s := Accept(st, id);
  }

  /** A plain chat line (server.js:138-140): prefixed with the name the sender
      had when it connected, logged, and delivered once to every other live
      session, so to nobody when the sender is alone. */
  function Chat(st: Server, sid: Sid, line: string): (s: Step)
    requires sid < |st.accepted|
    ensures s.next == st && s.closes == [] && s.serverLog == []
    ensures s.chatLog == [st.accepted[sid] + ": " + line]
    ensures Consistent(st) ==> SendsTo(s.out, st.accepted[sid] + ": " + line, st.clients.Keys - {sid})
    ensures st.clients.Keys <= {sid} ==> s.out == []
  {
    var wire := st.accepted[sid] + ": " + line;
    var out := Broadcast(st, wire, sid);
    assert |out| > 0 ==> out[0].to in st.clients.Keys - {sid};
    Step(st, out, [], [wire], [])
  }

  /** `cleanup` (server.js:145-153): a no-op for a session already gone;
      otherwise the session leaves the registry, its current name leaves the
      directory, and every remaining live session, never the departed one,
      hears that it left. */
  function Cleanup(st: Server, sid: Sid, reason: Reason): (s: Step)
    ensures sid !in st.clients ==> s == Quiet(st)
    ensures s.next.accepted == st.accepted && s.next.nextId == st.nextId
    ensures s.closes == [] && s.serverLog == []
    ensures sid !in s.next.clients && sid !in Recipients(s.out)
    ensures sid in st.clients ==> s.next.clients == st.clients - {sid}
    ensures sid in st.clients ==>
              var n := st.clients[sid];
              s.next.byName == if n in st.byName && st.byName[n] == sid then st.byName - {n} else st.byName
    ensures sid in st.clients && Consistent(st) ==>
              && s.next.byName == st.byName - {st.clients[sid]}
              && SendsTo(s.out, st.clients[sid] + " has left the chat.", s.next.clients.Keys)
              && s.chatLog == [st.clients[sid] + " " + ReasonText(reason)]
    ensures Consistent(st) ==> Consistent(s.next)
  {
    if sid !in st.clients then Quiet(st)
    else
      var currentName := st.clients[sid];
      var byName := if currentName in st.byName && st.byName[currentName] == sid
                    then st.byName - {currentName} else st.byName;
      var st' := st.(clients := st.clients - {sid}, byName := byName);
      CleanupFacts(st, sid);
      Step(st', Broadcast(st', currentName + " has left the chat.", sid), [],
           [currentName + " " + ReasonText(reason)], [])
  }

  lemma {:induction false} CleanupFacts(st: Server, sid: Sid)
    requires sid in st.clients
    ensures var n := st.clients[sid];
            Consistent(st) ==> && n in st.byName && st.byName[n] == sid
                               && Consistent(st.(clients := st.clients - {sid}, byName := st.byName - {n}))
  {
    if Consistent(st) {
      RemoveConsistent(st, sid);
    }
  }

  /** `end` followed by `close`: the second cleanup finds nothing to do. */
  lemma {:induction false} CleanupIdempotent(st: Server, sid: Sid, first: Reason, second: Reason)
    ensures var once := Cleanup(st, sid, first);
            Cleanup(once.next, sid, second) == Quiet(once.next)
  {
  }

  /** A session that connects and leaves again leaves registry and directory
      as they were; only the socket list and the guest counter remember it. */
  lemma {:induction false} AcceptThenLeave(st: Server, id: nat, reason: Reason)
    requires FirstFreeGuest(st.byName, st.nextId, id) && Consistent(st)
    ensures var joined := Accept(st, id).next;
            Cleanup(joined, |st.accepted|, reason).next == joined.(clients := st.clients, byName := st.byName)
  {
    var sid := |st.accepted|;
    var joined := Accept(st, id).next;
    LeaveUndoesJoin(st, joined, sid, GuestName(id), reason);
  }

  lemma {:induction false} LeaveUndoesJoin(st: Server, joined: Server, sid: Sid, name: string, reason: Reason)
    requires sid !in st.clients && name !in st.byName
    requires joined.clients == st.clients[sid := name] && joined.byName == st.byName[name := sid]
    ensures Cleanup(joined, sid, reason).next == joined.(clients := st.clients, byName := st.byName)
  {
  }

  /** A successful kick followed by the cleanup its `end()` brings about, by
      way of the target's `end` or its `close` event: the target's session and
      name are gone, the rest of the registry is untouched, and the others hear
      the target left under the name it was kicked by. */
  lemma {:induction false} KickThenClose(st: Server, sid: Sid, args: seq<string>, password: string, reason: Reason)
    requires Consistent(st) && KickAllowed(st, sid, args, password)
    ensures var k := Kick(st, sid, args, password);
            var c := Cleanup(k.next, k.closes[0], reason);
            && c.next.clients == st.clients - {st.byName[args[0]]}
            && c.next.byName == st.byName - {args[0]}
            && (sid in st.clients ==> sid in c.next.clients)
            && Consistent(c.next)
            && SendsTo(c.out, args[0] + " has left the chat.", c.next.clients.Keys)
    ensures var k := Kick(st, sid, args, password);
            Cleanup(k.next, k.closes[0], reason).chatLog == [args[0] + " " + ReasonText(reason)]
  {
    var target := st.byName[args[0]];
    var k := Kick(st, sid, args, password);
    assert k.next == st && k.closes == [target];
    assert target in st.clients && st.clients[target] == args[0];
    var c := Cleanup(st, target, reason);
    assert c.next.clients == st.clients - {target};
  }

  /** Chat lines keep the name a session connected under: after a rename, its
      chat is still prefixed with the connect-time name even though the
      directory knows it by the new one. */
  lemma {:induction false} ChatKeepsConnectName(st: Server, sid: Sid, newName: string, line: string)
    requires Consistent(st) && sid in st.clients && RenameAccepted(st, sid, [newName])
    ensures var renamed := Username(st, sid, [newName]).next;
            && renamed.clients[sid] == newName
            && newName in renamed.byName
            && Chat(renamed, sid, line).chatLog == [st.accepted[sid] + ": " + line]
  {
  }

  /** The `error` listener (server.js:155): a chat-log line under the
      connect-time name, nothing else. */
  function SocketError(st: Server, sid: Sid, message: string): (s: Step)
    requires sid < |st.accepted|
    ensures s.next == st && s.out == [] && s.closes == [] && s.serverLog == []
    ensures s.chatLog == [st.accepted[sid] + " error: " + message]
  {
    Step(st, [], [], [st.accepted[sid] + " error: " + message], [])
  }

  /** One line of input (server.js:134-141): a line that starts with `/` is
      dispatched as the command it parses to, any other line is chat; either
      way exactly one log line is written, the socket set and the guest
      counter stay, and consistency is kept. */
  function HandleLine(st: Server, sid: Sid, line: string, password: string): (s: Step)
    requires sid < |st.accepted|
    ensures IsCommandLine(line) ==> s == HandleCommand(st, sid, ParseCommand(line).value, password)
    ensures !IsCommandLine(line) ==> s == Chat(st, sid, line)
    ensures s.next.accepted == st.accepted && s.next.nextId == st.nextId
    ensures Consistent(st) ==> Consistent(s.next)
    ensures |s.chatLog| + |s.serverLog| == 1
  {
    match ParseCommand(line)
    case None => Chat(st, sid, line)
    case Some(c) => HandleCommand(st, sid, c, password)
  }

  /** The empty step: no change, nothing written. */
  function Quiet(st: Server): Step
  {
    Step(st, [], [], [], [])
  }

  /** Appends what a later step did to an earlier one. */
  function Then(a: Step, b: Step): Step
  {
    Step(b.next, a.out + b.out, a.closes + b.closes, a.chatLog + b.chatLog, a.serverLog + b.serverLog)
  }

  /** The lines of a chunk handled one after another: the first line's step,
      then the rest replayed from the state it left. Each line writes one log
      line; the socket set and the guest counter stay, and consistency is
      kept. */
  function Replay(st: Server, sid: Sid, lines: seq<string>, password: string): (s: Step)
    requires sid < |st.accepted|
    ensures s.next.accepted == st.accepted && s.next.nextId == st.nextId
    ensures Consistent(st) ==> Consistent(s.next)
    ensures |s.serverLog| + |s.chatLog| == |lines|
    decreases |lines|
  {
    if |lines| == 0 then Quiet(st)
    else
      var t := HandleLine(st, sid, lines[0], password);
      Then(t, Replay(t.next, sid, lines[1..], password))
  }

  /** The `data` listener (server.js:129-143): the lines of the chunk replayed in
      order, each seeing the state the previous one left. */
  method HandleData(st: Server, sid: Sid, data: string, password: string) returns (s: Step)
    requires sid < |st.accepted|
    ensures s == Replay(st, sid, Lines(data), password)
  {
    var lines := Lines(data);
    s := Quiet(st);
    assert lines[0..] == lines;
    QuietThen(Replay(st, sid, lines, password));
    for i := 0 to |lines|
      invariant s.next.accepted == st.accepted
      invariant Then(s, Replay(s.next, sid, lines[i..], password)) == Replay(st, sid, lines, password)
    {
      var t := HandleLine(s.next, sid, lines[i], password);
      ReplayNext(s, sid, lines[i..], password);
      assert lines[i..][1..] == lines[i + 1..];
      s := Then(s, t);
    }
    ThenQuiet(s);
  }

  /** One more line of the loop: the line's step moves from the replay still
      to come to the steps done so far. */
  lemma {:induction false} ReplayNext(s: Step, sid: Sid, rest: seq<string>, password: string)
    requires |rest| > 0 && sid < |s.next.accepted|
    ensures var t := HandleLine(s.next, sid, rest[0], password);
            Then(Then(s, t), Replay(t.next, sid, rest[1..], password)) ==
              Then(s, Replay(s.next, sid, rest, password))
  {
    var t := HandleLine(s.next, sid, rest[0], password);
    ThenAssociative(s, t, Replay(t.next, sid, rest[1..], password));
  }

  lemma {:induction false} QuietThen(s: Step)
    ensures Then(Quiet(s.next), s) == s
  {
  }

  lemma {:induction false} ThenQuiet(s: Step)
    ensures Then(s, Quiet(s.next)) == s
  {
  }

  lemma {:induction false} ThenAssociative(a: Step, b: Step, c: Step)
    ensures Then(Then(a, b), c) == Then(a, Then(b, c))
  {
    assert (a.out + b.out) + c.out == a.out + (b.out + c.out);
    assert (a.closes + b.closes) + c.closes == a.closes + (b.closes + c.closes);
    assert (a.chatLog + b.chatLog) + c.chatLog == a.chatLog + (b.chatLog + c.chatLog);
    assert (a.serverLog + b.serverLog) + c.serverLog == a.serverLog + (b.serverLog + c.serverLog);
  }

  // ----- Runs -----------------------------------------------------------------

  /** What the listening socket and the accepted sockets can report. */
  datatype Event =
    | Connection
    | Data(sid: Sid, text: string)
    | End(sid: Sid)
    | Close(sid: Sid)
    | Failure(sid: Sid, message: string)

  /** One event. A connection, and nothing else, accepts a handle under the
      first free guest counter value and reports it; data is replayed line by
      line; `end` and `close` clean up; an error is logged. Only a connection
      moves the counter or adds a handle, and consistency is kept. An event for
      a handle never accepted cannot happen and is skipped. */
  method HandleEvent(st: Server, e: Event, password: string) returns (s: Step, guest: Option<nat>)
    ensures guest.Some? <==> e.Connection?
    ensures e.Connection? ==>
              FirstFreeGuest(st.byName, st.nextId, guest.value) && s == Accept(st, guest.value)
    ensures e.Data? ==>
              if e.sid < |st.accepted| then s == Replay(st, e.sid, Lines(e.text), password)
              else s == Quiet(st)
    ensures e.End? ==> s == Cleanup(st, e.sid, Ended)
    ensures e.Close? ==> s == Cleanup(st, e.sid, Disconnected)
    ensures e.Failure? ==>
              if e.sid < |st.accepted| then s == SocketError(st, e.sid, e.message)
              else s == Quiet(st)
    ensures Consistent(st) ==> Consistent(s.next)
    ensures guest.None? ==> s.next.accepted == st.accepted && s.next.nextId == st.nextId
    ensures guest.Some? ==> && st.nextId <= guest.value && s.next.nextId == guest.value + 1
                            && s.next.accepted == st.accepted + [GuestName(guest.value)]
  {
    guest := None;
    match e
    case Connection =>
      var id;
      id, s := Connect(st);
      guest := Some(id);
    case Data(sid, text) =>
      if sid < |st.accepted| {
        s := HandleData(st, sid, text, password);
      } else {
        s := Quiet(st);
      }
    case End(sid) =>
      s := Cleanup(st, sid, Ended);
    case Close(sid) =>
      s := Cleanup(st, sid, Disconnected);
    case Failure(sid, message) =>
      if sid < |st.accepted| {
        s := SocketError(st, sid, message);
      } else {
        s := Quiet(st);
      }
  }

  /** `guests` lists the counter value each accepted socket was named after:
      strictly increasing, so no guest number was issued twice, and all below
      the counter. */
  predicate GuestsIssued(st: Server, guests: seq<nat>)
  {
    && |guests| == |st.accepted|
    && (forall i, j :: 0 <= i < j < |guests| ==> guests[i] < guests[j])
    && (forall i :: 0 <= i < |guests| ==> guests[i] < st.nextId)
    && (forall i :: 0 <= i < |guests| ==> st.accepted[i] == GuestName(guests[i]))
  }

  /** Event `e` takes the server from `st` to `st'`, reporting `guest`: a
      connection is accepted under the first free counter value, data is
      replayed line by line, `end` and `close` clean up, and an error changes
      nothing; only a connection reports a guest number. An event for a handle
      never accepted leaves the state alone. */
  predicate EventStep(st: Server, e: Event, password: string, st': Server, guest: Option<nat>)
  {
    match e
    case Connection =>
      guest.Some? && FirstFreeGuest(st.byName, st.nextId, guest.value) && st' == Accept(st, guest.value).next
    case Data(sid, text) =>
      guest.None? && st' == if sid < |st.accepted| then Replay(st, sid, Lines(text), password).next else st
    case End(sid) => guest.None? && st' == Cleanup(st, sid, Ended).next
    case Close(sid) => guest.None? && st' == Cleanup(st, sid, Disconnected).next
    case Failure(_, _) => guest.None? && st' == st
  }

  /** One event of a run, recording the counter value a connection is given. */
  method Advance(st: Server, guests: seq<nat>, e: Event, password: string)
    returns (st': Server, guests': seq<nat>, guest: Option<nat>)
    requires Consistent(st) && GuestsIssued(st, guests)
    ensures EventStep(st, e, password, st', guest)
    ensures guests' == if guest.Some? then guests + [guest.value] else guests
    ensures Consistent(st') && GuestsIssued(st', guests')
  {
    var s;
    s, guest := HandleEvent(st, e, password);
    IssuedAfter(st, guests, s.next, guest);
    st' := s.next;
    guests' := if guest.Some? then guests + [guest.value] else guests;
  }

  /** A connection appends the fresh counter value to the issued list; any
      other event leaves socket set, counter and list alone. */
  lemma {:induction false} IssuedAfter(st: Server, guests: seq<nat>, st': Server, guest: Option<nat>)
    requires GuestsIssued(st, guests)
    requires guest.None? ==> st'.accepted == st.accepted && st'.nextId == st.nextId
    requires guest.Some? ==> && st.nextId <= guest.value && st'.nextId == guest.value + 1
                             && st'.accepted == st.accepted + [GuestName(guest.value)]
    ensures GuestsIssued(st', if guest.Some? then guests + [guest.value] else guests)
  {
  }

  /** Handles the events in order from start-up. `trace` lists the states
      passed through, from `Initial` to the final `st`, and `issued` what each
      event reported: event `i` takes `trace[i]` to `trace[i + 1]`. Registry and
      directory agree after every run; the guest counter values handed out
      strictly increase, so no guest number is ever issued twice; and every
      accepted socket was named after the counter value it was given. */
  method Run(events: seq<Event>, password: string)
    returns (st: Server, guests: seq<nat>, trace: seq<Server>, issued: seq<Option<nat>>)
    ensures |trace| == |events| + 1 && |issued| == |events|
    ensures trace[0] == Initial && trace[|events|] == st
    ensures forall i :: 0 <= i < |events| ==> EventStep(trace[i], events[i], password, trace[i + 1], issued[i])
    ensures Consistent(st)
    ensures |guests| == |st.accepted|
    ensures forall i, j :: 0 <= i < j < |guests| ==> guests[i] < guests[j]
    ensures forall i :: 0 <= i < |guests| ==> guests[i] < st.nextId
    ensures forall i :: 0 <= i < |guests| ==> st.accepted[i] == GuestName(guests[i])
  {
    st := Initial;
    guests := [];
    trace := [st];
    issued := [];
    for e := 0 to |events|
      invariant |trace| == e + 1 && |issued| == e
      invariant trace[0] == Initial && trace[e] == st
      invariant forall i :: 0 <= i < e ==> EventStep(trace[i], events[i], password, trace[i + 1], issued[i])
      invariant Consistent(st) && GuestsIssued(st, guests)
    {
      var guest;
      st, guests, guest := Advance(st, guests, events[e], password);
      TraceExtend(events, password, trace, issued, st, guest);
      trace := trace + [st];
      issued := issued + [guest];
    }
  }

  /** A trace of `e` steps, followed by one more step from its last state,
      is a trace of `e + 1` steps. */
  lemma {:induction false} TraceExtend(events: seq<Event>, password: string, trace: seq<Server>,
                                       issued: seq<Option<nat>>, st': Server, guest: Option<nat>)
    requires |trace| == |issued| + 1 && |issued| < |events|
    requires forall i :: 0 <= i < |issued| ==> EventStep(trace[i], events[i], password, trace[i + 1], issued[i])
    requires EventStep(trace[|issued|], events[|issued|], password, st', guest)
    ensures forall i :: 0 <= i < |issued| + 1 ==>
              EventStep((trace + [st'])[i], events[i], password, (trace + [st'])[i + 1], (issued + [guest])[i])
  {
    var t, g := trace + [st'], issued + [guest];
    forall i | 0 <= i < |issued| + 1
      ensures EventStep(t[i], events[i], password, t[i + 1], g[i])
    {
      if i < |issued| {
        assert t[i] == trace[i] && t[i + 1] == trace[i + 1] && g[i] == issued[i];
      } else {
        assert t[i] == trace[|issued|] && t[i + 1] == st' && g[i] == guest;
      }
    }
  }

  /** The state after one guest has connected to a fresh server. */
  const OneGuestIn: Server := Server(["Guest1"], map[0 := "Guest1"], map["Guest1" := 0], 2)

  /** The state after two guests have connected to a fresh server. */
  const TwoGuestsIn: Server :=
    Server(["Guest1", "Guest2"], map[0 := "Guest1", 1 := "Guest2"], map["Guest1" := 0, "Guest2" := 1], 3)

  /** The first guest to connect is `Guest1`, welcomed and announced to nobody. */
  lemma {:induction false} FirstGuestConnects()
    ensures FirstFreeGuest(Initial.byName, Initial.nextId, 1)
    ensures Accept(Initial, 1).next == OneGuestIn
    ensures Accept(Initial, 1).out == [Delivery(0, Welcome("Guest1"))]
  {
    assert GuestName(1) == "Guest1";
    assert Accept(Initial, 1).next == OneGuestIn;
    assert Broadcast(OneGuestIn, "Guest1 has joined the chat.", 0) == [];
  }

  /** The second is `Guest2`, welcomed and announced to the first. */
  lemma {:induction false} SecondGuestConnects()
    ensures FirstFreeGuest(OneGuestIn.byName, OneGuestIn.nextId, 2)
    ensures Accept(OneGuestIn, 2).out ==
              [Delivery(1, Welcome("Guest2")), Delivery(0, "Guest2 has joined the chat.")]
  {
    SecondGuestRegistered();
    var out := Accept(OneGuestIn, 2).out;
    assert out[0] == Delivery(1, Welcome("Guest2"));
    assert out[1..] == Broadcast(TwoGuestsIn, GuestName(2) + " has joined the chat.", 1);
    JoinedText();
    OnlyOtherGuest(0, 1, "Guest2 has joined the chat.");
    assert out == [out[0]] + out[1..];
  }

  /** The arrival notice for `Guest2`, spelled out; kept apart so that the
      string literal is not unfolded next to the whole accept step. */
  lemma {:induction false} JoinedText()
    ensures "Guest2" + " has joined the chat." == "Guest2 has joined the chat."
  {
  }

  /** The second guest's registration alone, apart from its deliveries. */
  lemma {:induction false} SecondGuestRegistered()
    ensures FirstFreeGuest(OneGuestIn.byName, OneGuestIn.nextId, 2)
    ensures GuestName(2) == "Guest2"
    ensures Accept(OneGuestIn, 2).next == TwoGuestsIn
  {
    assert GuestName(2) == "Guest2";
  }

  /** With two guests in, a broadcast that excludes one reaches the other. */
  lemma {:induction false} OnlyOtherGuest(to: Sid, exclude: Sid, m: string)
    requires {to, exclude} == {0, 1}
    ensures Broadcast(TwoGuestsIn, m, exclude) == [Delivery(to, m)]
  {
    var c := TwoGuestsIn.clients;
    assert 0 in c && 1 in c;
    assert Fanout(c, 2, 2, exclude, m) == [];
    assert Fanout(c, 0, 2, exclude, m) == [Delivery(to, m)];
  }

  /** With two guests in, the first one's chat reaches the second only. */
  lemma {:induction false} TwoGuestsChat()
    ensures Chat(TwoGuestsIn, 0, "hello").out == [Delivery(1, "Guest1: hello")]
  {
    var c := TwoGuestsIn.clients;
    var m := "Guest1: hello";
    assert TwoGuestsIn.accepted[0] + ": " + "hello" == m;
    assert |TwoGuestsIn.accepted| == 2;
    assert 1 in c && 0 in c;
    assert Fanout(c, 2, 2, 0, m) == [];
    assert Fanout(c, 1, 2, 0, m) == [Delivery(1, m)];
    assert Fanout(c, 0, 2, 0, m) == [Delivery(1, m)];
    assert Broadcast(TwoGuestsIn, m, 0) == [Delivery(1, m)];
  }

  /** A whisper from the second guest reaches the first and echoes back. */
  lemma {:induction false} TwoGuestsWhisper()
    ensures Whisper(TwoGuestsIn, 1, ["Guest1", "hi"]).out ==
              [Delivery(0, "(whisper) Guest2: hi"), Delivery(1, "(whisper to Guest1) Guest2: hi")]
  {
    var args := ["Guest1", "hi"];
    assert NoSpace(args[0]) by {
      forall i | 0 <= i < |args[0]|
        ensures !IsSpace(args[0][i])
      {
        assert args[0][i] in "Guest1";
      }
    }
    assert NoSpace(args[1]) by {
      forall i | 0 <= i < |args[1]|
        ensures !IsSpace(args[1][i])
      {
        assert args[1][i] in "hi";
      }
    }
    assert Words(args);
    assert WhisperTarget(TwoGuestsIn, 1, args);
    assert NameOf(TwoGuestsIn, 1) == "Guest2";
    assert args[1..] == ["hi"];
    assert Join(["hi"], " ") == "hi";
    assert TwoGuestsIn.byName["Guest1"] == 0;
    assert "(whisper) " + "Guest2" + ": " + "hi" == "(whisper) Guest2: hi";
    assert "(whisper to " + "Guest1" + ") " + "Guest2" + ": " + "hi" == "(whisper to Guest1) Guest2: hi";
  }

  /** The typed line `/w Guest1 hi` parses to the whisper command with the
      target and the message word as its arguments. */
  lemma {:induction false} WhisperLineParses()
    ensures ParseCommand("/w Guest1 hi") == Some(Command("/w", ["Guest1", "hi"]))
  {
    WhisperLineWords();
    ParseRoundTrip("/w", ["Guest1", "hi"]);
    WhisperLineJoin();
  }

  /** The pieces of `/w Guest1 hi`: a command name and two tokens. */
  lemma {:induction false} WhisperLineWords()
    ensures IsCommandLine("/w") && NoSpace("/w") && Lower("/w") == "/w"
    ensures Words(["Guest1", "hi"])
  {
    var args := ["Guest1", "hi"];
    assert NoSpace("/w") by {
      forall i | 0 <= i < |"/w"|
        ensures !IsSpace("/w"[i])
      {
        assert "/w"[i] in "/w";
      }
    }
    assert NoSpace(args[0]) by {
      forall i | 0 <= i < |args[0]|
        ensures !IsSpace(args[0][i])
      {
        assert args[0][i] in "Guest1";
      }
    }
    assert NoSpace(args[1]) by {
      forall i | 0 <= i < |args[1]|
        ensures !IsSpace(args[1][i])
      {
        assert args[1][i] in "hi";
      }
    }
  }

  /** The pieces joined with single spaces spell the line. */
  lemma {:induction false} WhisperLineJoin()
    ensures Join(["/w"] + ["Guest1", "hi"], " ") == "/w Guest1 hi"
  {
    var ws := ["/w"] + ["Guest1", "hi"];
    assert ws[1..] == ["Guest1", "hi"] && ws[1..][1..] == ["hi"];
    assert Join(["hi"], " ") == "hi";
    assert Join(["Guest1", "hi"], " ") == "Guest1 hi";
    assert "/w" + " " + "Guest1 hi" == "/w Guest1 hi";
  }

  /** The same whisper typed as a line by the second guest. */
  lemma {:induction false} TwoGuestsWhisperLine(password: string)
    ensures HandleLine(TwoGuestsIn, 1, "/w Guest1 hi", password).out ==
              [Delivery(0, "(whisper) Guest2: hi"), Delivery(1, "(whisper to Guest1) Guest2: hi")]
  {
    WhisperLineParses();
    TwoGuestsWhisper();
    assert IsCommandLine("/w Guest1 hi");
  }

  /** When the first guest leaves, the second alone hears it and only its
      name is left in the directory. */
  lemma {:induction false} TwoGuestsLeave()
    ensures Cleanup(TwoGuestsIn, 0, Ended).out == [Delivery(1, "Guest1 has left the chat.")]
    ensures Cleanup(TwoGuestsIn, 0, Ended).next.byName == map["Guest2" := 1]
  {
    var c := map[1 := "Guest2"];
    var m := "Guest1 has left the chat.";
    assert "Guest1" + " has left the chat." == m;
    assert TwoGuestsIn.clients[0] == "Guest1";
    assert TwoGuestsIn.byName["Guest1"] == 0;
    assert TwoGuestsIn.clients - {0} == c;
    assert TwoGuestsIn.byName - {"Guest1"} == map["Guest2" := 1];
    var st' := TwoGuestsIn.(clients := c, byName := map["Guest2" := 1]);
    assert Cleanup(TwoGuestsIn, 0, Ended).next == st';
    assert |st'.accepted| == 2 && 1 in c && 0 !in c;
    assert Fanout(c, 2, 2, 0, m) == [];
    assert Fanout(c, 1, 2, 0, m) == [Delivery(1, m)];
    assert Fanout(c, 0, 2, 0, m) == [Delivery(1, m)];
    assert Broadcast(st', m, 0) == [Delivery(1, m)];
  }
}

=== FILE: order.dfy ===
/** The order `Array.prototype.sort` puts names in without a comparator:
    lexicographic by character, a proper prefix first. */
module Order {

  /** `a` sorts strictly before `b`. */
  predicate Less(a: string, b: string)
    decreases |a|
  {
    if |a| == 0 then |b| > 0
    else if |b| == 0 then false
    else if a[0] != b[0] then a[0] < b[0]
    else Less(a[1..], b[1..])
  }

  /** Strictly ascending, hence free of duplicates. */
  predicate Sorted(r: seq<string>)
  {
    forall i, j :: 0 <= i < j < |r| ==> Less(r[i], r[j])
  }

  lemma {:induction false} LessIrreflexive(a: string)
    ensures !Less(a, a)
    decreases |a|
  {
    if |a| > 0 {
      LessIrreflexive(a[1..]);
    }
  }

  lemma {:induction false} LessTransitive(a: string, b: string, c: string)
    requires Less(a, b) && Less(b, c)
    ensures Less(a, c)
    decreases |a|
  {
    if |a| > 0 && |b| > 0 && |c| > 0 && a[0] == b[0] && b[0] == c[0] {
      LessTransitive(a[1..], b[1..], c[1..]);
    }
  }

  lemma {:induction false} LessAsymmetric(a: string, b: string)
    requires Less(a, b)
    ensures !Less(b, a)
  {
    LessIrreflexive(a);
    if Less(b, a) {
      LessTransitive(a, b, a);
    }
  }

  /** Any two different names are ordered one way or the other. */
  lemma {:induction false} LessTotal(a: string, b: string)
    requires a != b
    ensures Less(a, b) || Less(b, a)
    decreases |a|
  {
    if |a| > 0 && |b| > 0 && a[0] == b[0] {
      assert a == [a[0]] + a[1..] && b == [b[0]] + b[1..];
      LessTotal(a[1..], b[1..]);
    }
  }

  /** No name of `names` sorts before `x`. */
  predicate IsLeast(x: string, names: set<string>)
  {
    x in names && forall y :: y in names ==> !Less(y, x)
  }

  /** Every non-empty set of names has a least one. */
  lemma {:induction false} LeastExists(names: set<string>)
    requires names != {}
    ensures exists x :: IsLeast(x, names)
    decreases names
  {
    var z :| z in names;
    var rest := names - {z};
    if rest == {} {
      assert names == {z};
      LessIrreflexive(z);
      assert IsLeast(z, names);
    } else {
      LeastExists(rest);
      var m :| IsLeast(m, rest);
      if Less(z, m) {
        forall y | y in names
          ensures !Less(y, z)
        {
          if y == z {
            LessIrreflexive(z);
          } else if y == m {
            LessAsymmetric(z, m);
          } else {
            LessTotal(y, m);
            LessTransitive(z, m, y);
            LessAsymmetric(z, y);
          }
        }
        assert IsLeast(z, names);
      } else {
        forall y | y in names
          ensures !Less(y, m)
        {
          if y != z {
            assert y in rest;
          }
        }
        assert IsLeast(m, names);
      }
    }
  }

  /** A set has only one least name. */
  lemma {:induction false} LeastUnique(names: set<string>)
    ensures forall x, x' :: IsLeast(x, names) && IsLeast(x', names) ==> x == x'
  {
    forall x, x' | IsLeast(x, names) && IsLeast(x', names)
      ensures x == x'
    {
      if x != x' {
        LessTotal(x, x');
      }
    }
  }

  /** The least name goes before every other name of the set. */
  lemma {:induction false} LeastFirst(x: string, names: set<string>, rest: seq<string>)
    requires IsLeast(x, names) && Sorted(rest)
    requires forall y :: y in rest <==> y in names - {x}
    ensures Sorted([x] + rest)
  {
    forall j | 0 <= j < |rest|
      ensures Less(x, rest[j])
    {
      assert rest[j] in rest;
      LessTotal(x, rest[j]);
    }
    assert forall j :: 0 < j < |[x] + rest| ==> ([x] + rest)[j] == rest[j - 1];
  }

  /** The names of a set in ascending order, each once: the least first, then
      the rest listed the same way. */
  function Sort(names: set<string>): (r: seq<string>)
    ensures Sorted(r)
    ensures |r| == |names|
    ensures forall y :: y in r <==> y in names
    decreases names
  {
    if names == {} then []
    else
      LeastExists(names);
      LeastUnique(names);
      var x :| IsLeast(x, names);
      var rest := Sort(names - {x});
      LeastFirst(x, names, rest);
      [x] + rest
  }

  /** A set has only one ascending listing. */
  lemma {:induction false} SortedUnique(a: seq<string>, b: seq<string>)
    requires Sorted(a) && Sorted(b)
    requires forall y :: y in a <==> y in b
    ensures a == b
    decreases |a|
  {
    if |a| > 0 {
      assert a[0] in a;
    }
    if |b| > 0 {
      assert b[0] in b;
    }
    if |a| > 0 && |b| > 0 {
      HeadIsLeast(a, b);
      HeadIsLeast(b, a);
      assert a[0] == b[0];
      forall y
        ensures y in a[1..] <==> y in b[1..]
      {
        TailMembers(a, y);
        TailMembers(b, y);
      }
      SortedUnique(a[1..], b[1..]);
      assert a == [a[0]] + a[1..] && b == [b[0]] + b[1..];
    }
  }

  /** The head of an ascending list is not above any element of a list with
      the same members. */
  lemma {:induction false} HeadIsLeast(a: seq<string>, b: seq<string>)
    requires Sorted(a) && Sorted(b) && |a| > 0 && |b| > 0
    requires forall y :: y in a <==> y in b
    ensures !Less(b[0], a[0])
  {
    assert b[0] in a;
    var k :| 0 <= k < |a| && a[k] == b[0];
    if k > 0 {
      LessAsymmetric(a[0], b[0]);
    } else {
      LessIrreflexive(a[0]);
    }
  }

  /** In an ascending list the tail holds exactly the members other than the head. */
  lemma {:induction false} TailMembers(a: seq<string>, y: string)
    requires Sorted(a) && |a| > 0
    ensures y in a[1..] <==> y in a && y != a[0]
  {
    if y in a[1..] {
      var k :| 1 <= k < |a| && a[k] == y;
      LessIrreflexive(y);
    }
    assert a == [a[0]] + a[1..];
  }
}

=== FILE: outbox.dfy ===
/** Delivery (`send`, server.js:22) and fan-out (`broadcast`, server.js:23), and
    the record of what one event does. */
module Outbox {
  import opened Registry

  /** One `send(sock, msg)`: the line `text` written to socket `to`. */
  datatype Delivery = Delivery(to: Sid, text: string)

  /** The effect of handling one event: the state afterwards, the lines written
      in order, the sockets `end()` was called on, and the lines appended to
      the chat log and to the server log (without their timestamps). */
  datatype Step = Step(
    next: Server,
    out: seq<Delivery>,
    closes: seq<Sid>,
    chatLog: seq<string>,
    serverLog: seq<string>)

  /** `out` delivers `msg` once to each session in `targets` and to nobody else. */
  predicate SendsTo(out: seq<Delivery>, msg: string, targets: set<Sid>)
  {
    && (forall i :: 0 <= i < |out| ==> out[i].text == msg && out[i].to in targets)
    && (forall t :: t in targets ==> Delivery(t, msg) in out)
    && (forall i, j :: 0 <= i < j < |out| ==> out[i].to != out[j].to)
  }

  /** The sockets `out` writes to. */
  function Recipients(out: seq<Delivery>): set<Sid>
  {
    set i | 0 <= i < |out| :: out[i].to
  }

  /** `send` to each live handle in `[lo, hi)` other than `exclude`, ascending. */
  function Fanout(clients: map<Sid, string>, lo: nat, hi: nat, exclude: Sid, msg: string): seq<Delivery>
    decreases hi - lo
  {
    if lo >= hi then []
    else
      var rest := Fanout(clients, lo + 1, hi, exclude, msg);
      if lo in clients && lo != exclude then [Delivery(lo, msg)] + rest else rest
  }

  /** Every line of `r` is `msg`, to a live handle in `[lo, hi)` other than `exclude`. */
  predicate Aimed(r: seq<Delivery>, clients: map<Sid, string>, lo: nat, hi: nat, exclude: Sid, msg: string)
  {
    forall i :: 0 <= i < |r| ==>
      r[i].text == msg && r[i].to in clients && r[i].to != exclude && lo <= r[i].to < hi
  }

  /** The handles `r` writes to strictly ascend. */
  predicate Ascending(r: seq<Delivery>)
  {
    forall i, j :: 0 <= i < j < |r| ==> r[i].to < r[j].to
  }

  /** A fan-out writes only `msg`, only to live handles in range other than
      `exclude`, and in strictly ascending handle order. */
  lemma {:induction false} FanoutSound(clients: map<Sid, string>, lo: nat, hi: nat, exclude: Sid, msg: string)
    ensures Aimed(Fanout(clients, lo, hi, exclude, msg), clients, lo, hi, exclude, msg)
    ensures Ascending(Fanout(clients, lo, hi, exclude, msg))
    decreases hi - lo
  {
    if lo < hi {
      FanoutSound(clients, lo + 1, hi, exclude, msg);
      var rest := Fanout(clients, lo + 1, hi, exclude, msg);
      if lo in clients && lo != exclude {
        var r := [Delivery(lo, msg)] + rest;
        assert forall i :: 1 <= i < |r| ==> r[i] == rest[i - 1];
      }
    }
  }

  /** A fan-out reaches every live handle in range other than `exclude`. */
  lemma {:induction false} FanoutComplete(clients: map<Sid, string>, lo: nat, hi: nat, exclude: Sid, msg: string)
    ensures forall k :: lo <= k < hi && k in clients && k != exclude ==>
              Delivery(k, msg) in Fanout(clients, lo, hi, exclude, msg)
    decreases hi - lo
  {
    if lo < hi {
      FanoutComplete(clients, lo + 1, hi, exclude, msg);
    }
  }

  /** `broadcast(msg, exclude)`: `msg` once to every live session but `exclude`,
      in the order the sessions connected. */
  function Broadcast(st: Server, msg: string, exclude: Sid): (r: seq<Delivery>)
    ensures Aimed(r, st.clients, 0, |st.accepted|, exclude, msg)
    ensures (forall s :: s in st.clients ==> s < |st.accepted|) ==>
              SendsTo(r, msg, st.clients.Keys - {exclude})
    ensures Ascending(r)
  {
    var r := Fanout(st.clients, 0, |st.accepted|, exclude, msg);
    FanoutSound(st.clients, 0, |st.accepted|, exclude, msg);
    FanoutComplete(st.clients, 0, |st.accepted|, exclude, msg);
    assert forall i, j :: 0 <= i < j < |r| ==> r[i].to != r[j].to;
    r
  }
}

=== FILE: protocol.dfy ===
/** The line protocol (server.js:129-133) and the command parser
    `parseCommand` (server.js:38-42). */
module Protocol {
  import opened Text
  import opened Wrappers

  /** `replace(/\r\n?/g, '\n')`: every CR LF pair and every lone CR becomes LF. */
  function NormalizeNewlines(s: string): (r: string)
    ensures '\r' !in r
    ensures |r| <= |s|
    decreases |s|
  {
    if |s| == 0 then ""
    else if s[0] == '\r' then
      if |s| > 1 && s[1] == '\n' then "\n" + NormalizeNewlines(s[2..])
      else "\n" + NormalizeNewlines(s[1..])
    else [s[0]] + NormalizeNewlines(s[1..])
  }

  /** `filter(Boolean)`: the non-empty pieces, in order. */
  function DropEmpty(pieces: seq<string>): (r: seq<string>)
    ensures |r| <= |pieces|
    ensures forall k :: 0 <= k < |r| ==> |r[k]| > 0
    ensures forall c :: Excludes(pieces, c) ==> Excludes(r, c)
    ensures (forall k :: 0 <= k < |pieces| ==> |pieces[k]| > 0) ==> r == pieces
  {
    if |pieces| == 0 then []
    else
      var rest := DropEmpty(pieces[1..]);
      assert forall c :: Excludes(pieces, c) ==> c !in pieces[0] && Excludes(pieces[1..], c);
      if |pieces[0]| > 0 then [pieces[0]] + rest else rest
  }

  /** The loop body's `raw.trim()` followed by `if (!line) continue`. */
  function TrimLines(raws: seq<string>): (r: seq<string>)
    ensures |r| <= |raws|
    ensures forall k :: 0 <= k < |r| ==> |r[k]| > 0 && IsTrimmed(r[k])
    ensures forall c :: Excludes(raws, c) ==> Excludes(r, c)
    ensures (forall k :: 0 <= k < |raws| ==> |raws[k]| > 0 && IsTrimmed(raws[k])) ==> r == raws
  {
    if |raws| == 0 then []
    else
      var rest := TrimLines(raws[1..]);
      var line := Trim(raws[0]);
      assert forall c :: Excludes(raws, c) ==> c !in raws[0] && Excludes(raws[1..], c);
      assert (forall k :: 0 <= k < |raws| ==> |raws[k]| > 0 && IsTrimmed(raws[k])) ==>
               line == raws[0] && rest == raws[1..] && raws == [raws[0]] + raws[1..] by {
        if forall k :: 0 <= k < |raws| ==> |raws[k]| > 0 && IsTrimmed(raws[k]) {
          TrimmedTail(raws);
        }
      }
      if |line| > 0 then [line] + rest else rest
  }

  /** The tail of a list of non-empty trimmed lines is one too. */
  lemma {:induction false} TrimmedTail(raws: seq<string>)
    requires |raws| > 0 && forall k :: 0 <= k < |raws| ==> |raws[k]| > 0 && IsTrimmed(raws[k])
    ensures |raws[0]| > 0 && IsTrimmed(raws[0]) && raws == [raws[0]] + raws[1..]
    ensures forall k :: 0 <= k < |raws[1..]| ==> |raws[1..][k]| > 0 && IsTrimmed(raws[1..][k])
  {
    assert forall k :: 0 <= k < |raws[1..]| ==> raws[1..][k] == raws[k + 1];
  }

  /** The lines of LF-separated text: the non-blank pieces between LFs,
      trimmed; none holds an LF. */
  function Fields(s: string): (r: seq<string>)
    ensures forall k :: 0 <= k < |r| ==> |r[k]| > 0 && IsTrimmed(r[k])
    ensures forall c :: c !in s ==> Excludes(r, c)
    ensures Excludes(r, '\n')
  {
    var pieces := SplitOn(s, '\n');
    assert forall c :: c !in s ==> Excludes(pieces, c) by {
      forall c | c !in s
        ensures Excludes(pieces, c)
      {
        JoinExcludesPieces(pieces, s, c);
      }
    }
    TrimLines(DropEmpty(pieces))
  }

  /** The lines one chunk of input is processed as, in order: no line is empty,
      none has a blank end, and none holds a CR or an LF. */
  function Lines(data: string): (r: seq<string>)
    ensures forall k :: 0 <= k < |r| ==> |r[k]| > 0 && IsTrimmed(r[k])
    ensures Excludes(r, '\n') && Excludes(r, '\r')
  {
    Fields(NormalizeNewlines(data))
  }

  /** The pieces of a string lack every character the string lacks. */
  lemma {:induction false} JoinExcludesPieces(pieces: seq<string>, s: string, c: char)
    requires Join(pieces, "\n") == s && c !in s
    ensures Excludes(pieces, c)
  {
    if |pieces| > 1 {
      assert s == pieces[0] + "\n" + Join(pieces[1..], "\n");
      JoinExcludesPieces(pieces[1..], Join(pieces[1..], "\n"), c);
    }
  }

  /** A string without CR passes through newline normalisation unchanged. */
  lemma {:induction false} NormalizeNoCR(s: string)
    requires '\r' !in s
    ensures NormalizeNewlines(s) == s
    decreases |s|
  {
    if |s| > 0 {
      NormalizeNoCR(s[1..]);
      assert s == [s[0]] + s[1..];
    }
  }

  /** Normalisation works piece by piece when the first piece does not end in CR. */
  lemma {:induction false} NormalizeAppend(a: string, b: string)
    requires '\r' !in a
    ensures NormalizeNewlines(a + b) == a + NormalizeNewlines(b)
    decreases |a|
  {
    if |a| > 0 {
      assert (a + b)[1..] == a[1..] + b;
      NormalizeAppend(a[1..], b);
      assert a == [a[0]] + a[1..];
    } else {
      assert a + b == b;
    }
  }

  /** Lines sent with CR LF terminators normalise to the same text sent with LF. */
  lemma {:induction false} NormalizeCRLF(ls: seq<string>)
    requires Excludes(ls, '\r')
    ensures NormalizeNewlines(Join(ls, "\r\n")) == Join(ls, "\n")
  {
    if |ls| == 1 {
      NormalizeNoCR(ls[0]);
    } else if |ls| > 1 {
      var t := Join(ls[1..], "\r\n");
      assert Join(ls, "\r\n") == ls[0] + ("\r\n" + t);
      NormalizeAppend(ls[0], "\r\n" + t);
      assert ("\r\n" + t)[2..] == t;
      NormalizeCRLF(ls[1..]);
    }
  }

  /** Well-formed lines separated by LF are recovered exactly: the noise-free
      case of `NoisyFields`. */
  lemma {:induction false} FieldsRoundTrip(ls: seq<string>)
    requires forall k :: 0 <= k < |ls| ==> |ls[k]| > 0 && IsTrimmed(ls[k])
    requires Excludes(ls, '\n')
    ensures Fields(Join(ls, "\n")) == ls
  {
    if |ls| == 0 {
      assert SplitOn("", '\n') == [""];
    } else {
      SplitOnJoin(ls, '\n');
    }
  }

  /** Well-formed lines sent one per LF come out as exactly those lines: the
      noise-free case of `LinesNoisyRoundTrip`. */
  lemma {:induction false} LinesRoundTrip(ls: seq<string>)
    requires forall k :: 0 <= k < |ls| ==> |ls[k]| > 0 && IsTrimmed(ls[k])
    requires Excludes(ls, '\r') && Excludes(ls, '\n')
    ensures Lines(Join(ls, "\n")) == ls
  {
    JoinExcludes(ls, "\n", '\r');
    NormalizeNoCR(Join(ls, "\n"));
    FieldsRoundTrip(ls);
  }

  /** The same lines sent one per CR LF come out the same: again the
      noise-free case of `LinesNoisyRoundTrip`. */
  lemma {:induction false} LinesRoundTripCRLF(ls: seq<string>)
    requires forall k :: 0 <= k < |ls| ==> |ls[k]| > 0 && IsTrimmed(ls[k])
    requires Excludes(ls, '\r') && Excludes(ls, '\n')
    ensures Lines(Join(ls, "\r\n")) == ls
  {
    NormalizeCRLF(ls);
    FieldsRoundTrip(ls);
  }

  /** A lone CR, one not followed by LF, becomes LF. */
  lemma {:induction false} NormalizeLoneCR(a: string, b: string)
    requires '\r' !in a
    requires |b| == 0 || b[0] != '\n'
    ensures NormalizeNewlines(a + "\r" + b) == a + "\n" + NormalizeNewlines(b)
  {
    assert a + "\r" + b == a + ("\r" + b);
    NormalizeAppend(a, "\r" + b);
    CRHead(b);
  }

  /** A CR LF pair becomes one LF. */
  lemma {:induction false} NormalizePair(a: string, b: string)
    requires '\r' !in a
    ensures NormalizeNewlines(a + "\r\n" + b) == a + "\n" + NormalizeNewlines(b)
  {
    assert a + "\r\n" + b == a + ("\r\n" + b);
    NormalizeAppend(a, "\r\n" + b);
    CRLFHead(b);
  }

  lemma {:induction false} CRHead(b: string)
    requires |b| == 0 || b[0] != '\n'
    ensures NormalizeNewlines("\r" + b) == "\n" + NormalizeNewlines(b)
  {
    assert ("\r" + b)[1..] == b;
  }

  lemma {:induction false} CRLFHead(b: string)
    ensures NormalizeNewlines("\r\n" + b) == "\n" + NormalizeNewlines(b)
  {
    assert ("\r\n" + b)[2..] == b;
  }

  /** Lines sent with lone CR terminators normalise to the same text sent with LF. */
  lemma {:induction false} NormalizeCR(ls: seq<string>)
    requires Excludes(ls, '\r') && Excludes(ls, '\n')
    ensures NormalizeNewlines(Join(ls, "\r")) == Join(ls, "\n")
  {
    if |ls| == 1 {
      NormalizeNoCR(ls[0]);
    } else if |ls| > 1 {
      var t := Join(ls[1..], "\r");
      JoinExcludes(ls[1..], "\r", '\n');
      assert |t| > 0 ==> t[0] in t;
      NormalizeLoneCR(ls[0], t);
      NormalizeCR(ls[1..]);
    }
  }

  /** Dropping empty pieces works piece by piece, keeping the order. */
  lemma {:induction false} DropEmptyAppend(a: seq<string>, b: seq<string>)
    ensures DropEmpty(a + b) == DropEmpty(a) + DropEmpty(b)
  {
    if |a| > 0 {
      assert (a + b)[0] == a[0] && (a + b)[1..] == a[1..] + b;
      DropEmptyAppend(a[1..], b);
    } else {
      assert a + b == b;
    }
  }

  /** Trimming and skipping blank lines works line by line, keeping the order. */
  lemma {:induction false} TrimLinesAppend(a: seq<string>, b: seq<string>)
    ensures TrimLines(a + b) == TrimLines(a) + TrimLines(b)
  {
    if |a| > 0 {
      var ab := a + b;
      assert ab[0] == a[0] && ab[1..] == a[1..] + b;
      TrimLinesAppend(a[1..], b);
      var head := if |Trim(a[0])| > 0 then [Trim(a[0])] else [];
      TrimLinesStep(ab);
      TrimLinesStep(a);
      assert head + (TrimLines(a[1..]) + TrimLines(b)) == (head + TrimLines(a[1..])) + TrimLines(b);
    } else {
      assert a + b == b;
    }
  }

  /** The first piece contributes its trimmed text, if that is not empty. */
  lemma {:induction false} TrimLinesStep(raws: seq<string>)
    requires |raws| > 0
    ensures TrimLines(raws) ==
              (if |Trim(raws[0])| > 0 then [Trim(raws[0])] else []) + TrimLines(raws[1..])
  {
    if |Trim(raws[0])| == 0 {
      assert [] + TrimLines(raws[1..]) == TrimLines(raws[1..]);
    }
  }

  /** `raw` is `line` with white space around it. */
  ghost predicate Padded(raw: string, line: string)
  {
    exists i, j :: 0 <= i <= j <= |raw| && raw[i..j] == line && AllSpace(raw[..i]) && AllSpace(raw[j..])
  }

  /** `raws` is `ls` typed carelessly: blank pieces anywhere, and white space
      around each line, which come in order. */
  ghost predicate Noisy(raws: seq<string>, ls: seq<string>)
    decreases |raws|
  {
    if |raws| == 0 then |ls| == 0
    else
      || (AllSpace(raws[0]) && Noisy(raws[1..], ls))
      || (|ls| > 0 && Padded(raws[0], ls[0]) && Noisy(raws[1..], ls[1..]))
  }

  /** Dropping empty pieces and trimming recovers exactly the lines a noisy
      list of pieces carries. */
  lemma {:induction false} NoisyFields(raws: seq<string>, ls: seq<string>)
    requires Noisy(raws, ls)
    requires forall k :: 0 <= k < |ls| ==> |ls[k]| > 0 && IsTrimmed(ls[k])
    ensures TrimLines(DropEmpty(raws)) == ls
    decreases |raws|
  {
    if |raws| > 0 {
      assert raws == [raws[0]] + raws[1..];
      if AllSpace(raws[0]) && Noisy(raws[1..], ls) {
        NoisyFields(raws[1..], ls);
        BlankPiece(raws[0], raws[1..]);
      } else {
        NoisyFields(raws[1..], ls[1..]);
        PaddedPiece(raws[0], ls[0], raws[1..]);
        assert ls == [ls[0]] + ls[1..];
      }
    }
  }

  /** A blank piece contributes no line. */
  lemma {:induction false} BlankPiece(r: string, rest: seq<string>)
    requires AllSpace(r)
    ensures TrimLines(DropEmpty([r] + rest)) == TrimLines(DropEmpty(rest))
  {
    PieceStep(r, rest);
    assert |Trim(r)| == 0;
  }

  /** A padded line contributes that line. */
  lemma {:induction false} PaddedPiece(r: string, line: string, rest: seq<string>)
    requires Padded(r, line) && |line| > 0 && IsTrimmed(line)
    ensures TrimLines(DropEmpty([r] + rest)) == [line] + TrimLines(DropEmpty(rest))
  {
    PaddedTrim(r, line);
    PieceStep(r, rest);
  }

  /** `trim` takes the white space off a padded line. */
  lemma {:induction false} PaddedTrim(r: string, line: string)
    requires Padded(r, line) && |line| > 0 && IsTrimmed(line)
    ensures Trim(r) == line
  {
    var i, j :| 0 <= i <= j <= |r| && r[i..j] == line && AllSpace(r[..i]) && AllSpace(r[j..]);
    ThreeParts(r, i, j);
    TrimPadded(r[..i], r[i..j], r[j..]);
  }

  /** A string is its prefix, middle and suffix put back together. */
  lemma {:induction false} ThreeParts(r: string, i: nat, j: nat)
    requires i <= j <= |r|
    ensures r == r[..i] + r[i..j] + r[j..]
  {
    assert r[..j] == r[..i] + r[i..j];
    assert r == r[..j] + r[j..];
  }

  /** The first piece contributes its trimmed text, if that is not empty. */
  lemma {:induction false} PieceStep(r: string, rest: seq<string>)
    ensures TrimLines(DropEmpty([r] + rest)) ==
              (if |Trim(r)| > 0 then [Trim(r)] else []) + TrimLines(DropEmpty(rest))
  {
    assert ([r] + rest)[0] == r && ([r] + rest)[1..] == rest;
    var d := DropEmpty(rest);
    if |r| > 0 {
      assert DropEmpty([r] + rest) == [r] + d;
      assert ([r] + d)[0] == r && ([r] + d)[1..] == d;
    } else {
      assert DropEmpty([r] + rest) == d;
    }
  }

  /** Well-formed lines come out exactly, in order, from any noisy typing of
      them sent with LF, CR LF or lone CR terminators: blank lines vanish and
      the white space around each line is cut off. */
  lemma {:induction false} LinesNoisyRoundTrip(raws: seq<string>, ls: seq<string>)
    requires Noisy(raws, ls)
    requires forall k :: 0 <= k < |ls| ==> |ls[k]| > 0 && IsTrimmed(ls[k])
    requires Excludes(raws, '\r') && Excludes(raws, '\n')
    ensures Lines(Join(raws, "\n")) == ls
    ensures Lines(Join(raws, "\r\n")) == ls
    ensures Lines(Join(raws, "\r")) == ls
  {
    NoisyFields(raws, ls);
    JoinExcludes(raws, "\n", '\r');
    NormalizeNoCR(Join(raws, "\n"));
    NormalizeCRLF(raws);
    NormalizeCR(raws);
    if |raws| == 0 {
      assert SplitOn("", '\n') == [""];
    } else {
      SplitOnJoin(raws, '\n');
    }
  }

  // ----- parseCommand ---------------------------------------------------------

  /** A command line split into its lower-cased name (with its `/`) and
      positional arguments. */
  datatype Command = Command(name: string, args: seq<string>)

  predicate IsCommandLine(line: string)
  {
    |line| > 0 && line[0] == '/'
  }

  /** `parseCommand`: no command unless the line starts with `/`; otherwise the
      first `\s+`-delimited token of the trimmed line, lower-cased, names the
      command and the remaining tokens are its arguments. */
  function ParseCommand(line: string): (r: Option<Command>)
    ensures r.None? <==> !IsCommandLine(line)
    ensures r.Some? ==> IsCommandLine(r.value.name) && NoSpace(r.value.name)
    ensures r.Some? ==> Words(r.value.args)
  {
    if !IsCommandLine(line) then None
    else
      var t := Trim(line);
      SplitSpaceTrimmed(t);
      var parts := SplitSpace(t);
      Some(Command(Lower(parts[0]), parts[1..]))
  }

  /** A command typed as its name followed by space-separated arguments parses
      back to the lower-cased name and exactly those arguments. */
  lemma {:induction false} ParseRoundTrip(head: string, args: seq<string>)
    requires IsCommandLine(head) && NoSpace(head)
    requires Words(args)
    ensures ParseCommand(Join([head] + args, " ")) == Some(Command(Lower(head), args))
  {
    var ws := [head] + args;
    assert Words(ws);
    JoinWords(ws);
    var line := Join(ws, " ");
    SplitSpaceJoin(ws);
    assert ws[1..] == args;
  }

  /** A command typed as its name followed by its arguments, with any runs of
      white space between them and any white space after the last, parses back
      to the lower-cased name and exactly those arguments. */
  lemma {:induction false} ParseSpacedRoundTrip(head: string, args: seq<string>, seps: seq<string>, tail: string)
    requires IsCommandLine(head) && NoSpace(head)
    requires Words(args) && |seps| == |args| && Runs(seps) && AllSpace(tail)
    ensures ParseCommand(Spaced([head] + args, seps) + tail) == Some(Command(Lower(head), args))
  {
    var ws := [head] + args;
    assert Words(ws);
    SpacedWords(ws, seps);
    var t := Spaced(ws, seps);
    assert (t + tail)[0] == head[0];
    assert "" + t + tail == t + tail;
    TrimPadded("", t, tail);
    SplitSpaceSpaced(ws, seps);
    assert ws[1..] == args;
  }
}

=== FILE: registry.dfy ===
/** The session registry `clients` (socket to name), the name directory
    `byName` (name to socket) and the guest counter `nextId` (server.js:10-14),
    with the operations that keep them in step: guest allocation
    (server.js:25-26, 119-122) and `setClientName` (server.js:28-36). */
module Registry {
  import opened Decimal
  import opened Text

  /** A connection handle. Handles are numbered in the order connections are
      accepted; since a socket enters `clients` once and never re-enters, this is
      also the order in which the JavaScript `Map` iterates them. */
  type Sid = nat

  /** The relay's in-memory state.
      `accepted[s]` is the name socket `s` was given when it connected (the
      `let name` its handlers close over); `clients` holds the live sessions and
      their current names; `byName` is the directory; `nextId` the guest counter. */
  datatype Server = Server(
    accepted: seq<string>,
    clients: map<Sid, string>,
    byName: map<string, Sid>,
    nextId: nat)

  /** The state at start-up: nobody connected, the counter at 1. */
  const Initial: Server := Server([], map[], map[], 1)

  predicate IsNameChar(c: char)
  {
    ('A' <= c <= 'Z') || ('a' <= c <= 'z') || ('0' <= c <= '9') || c == '_' || c == '-'
  }

  /** `validUsername`: `/^[A-Za-z0-9_-]{3,20}$/`. A name that passes is short,
      non-empty ASCII without white space, so it can be typed as a single
      command argument. */
  predicate ValidUsername(n: string): (ok: bool)
    ensures ok ==> 3 <= |n| <= 20 && IsAscii(n) && NoSpace(n)
  {
    3 <= |n| <= 20 && forall i :: 0 <= i < |n| ==> IsNameChar(n[i])
  }

  predicate IsAscii(n: string)
  {
    forall i :: 0 <= i < |n| ==> n[i] < '\U{0080}'
  }

  /** The name `nextGuest` hands out for counter value `k`: `Guest`, then a
      decimal numeral without a leading zero that reads back as `k`. */
  function GuestName(k: nat): (r: string)
    ensures |r| > 5 && r[..5] == "Guest"
    ensures AllDigits(r[5..]) && Value(r[5..]) == k
    ensures r[5] == '0' ==> k == 0
  {
    var digits := Show(k);
    ValueShow(k);
    assert ("Guest" + digits)[5..] == digits;
    "Guest" + digits
  }

  /** Registry and directory agree: each live session's name maps back to it,
      each directory entry names a live session holding that name, every live
      handle was accepted, and every held name is non-empty ASCII. */
  ghost predicate Consistent(st: Server)
  {
    && (forall s :: s in st.clients ==> s < |st.accepted|)
    && (forall s :: s in st.clients ==> st.clients[s] in st.byName && st.byName[st.clients[s]] == s)
    && (forall n :: n in st.byName ==> st.byName[n] in st.clients && st.clients[st.byName[n]] == n)
    && (forall n :: n in st.byName ==> |n| > 0 && IsAscii(n))
  }

  /** `clients.get(sock)?.name || 'Unknown'`: the acting session's name as the
      handlers print it. */
  function NameOf(st: Server, sid: Sid): (n: string)
    ensures Consistent(st) && sid in st.clients ==> n == st.clients[sid]
    ensures sid !in st.clients ==> n == "Unknown"
  {
    if sid in st.clients && st.clients[sid] != "" then st.clients[sid] else "Unknown"
  }

  lemma {:induction false} ValidUsernameAscii(n: string)
    requires ValidUsername(n)
    ensures |n| > 0 && IsAscii(n)
  {
  }

  lemma {:induction false} GuestNameAscii(k: nat)
    ensures |GuestName(k)| > 0 && IsAscii(GuestName(k))
  {
  }

  /** Distinct counter values give distinct guest names. */
  lemma {:induction false} GuestNameInjective(a: nat, b: nat)
    ensures GuestName(a) == GuestName(b) ==> a == b
  {
    if GuestName(a) == GuestName(b) {
      assert Show(a) == GuestName(a)[5..];
      assert Show(b) == GuestName(b)[5..];
      ShowInjective(a, b);
    }
  }

  /** `id` is what the allocation loop settles on from counter value `from`:
      the first counter value whose guest name is free. */
  predicate FirstFreeGuest(taken: map<string, Sid>, from: nat, id: nat)
  {
    && from <= id
    && GuestName(id) !in taken
    && forall k :: from <= k < id ==> GuestName(k) in taken
  }

  /** The guest-name allocation of the connection handler: draws guest names
      from the counter, counting upwards from `from`, until one is free.
      It ends because each value it skips takes a different name out of the
      finite directory. */
  method AllocateGuest(taken: map<string, Sid>, from: nat) returns (id: nat)
    ensures FirstFreeGuest(taken, from, id)
  {
    id := from;
    ghost var pending := taken.Keys;
    while GuestName(id) in taken
      invariant from <= id
      invariant pending <= taken.Keys
      invariant forall k :: from <= k < id ==> GuestName(k) in taken
      invariant forall k :: from <= k < id ==> GuestName(k) !in pending
      invariant forall x :: x in taken && x !in pending ==> exists k :: from <= k < id && x == GuestName(k)
      decreases |pending|
    {
      forall k | from <= k < id
        ensures GuestName(k) != GuestName(id)
      {
        GuestNameInjective(k, id);
      }
      assert GuestName(id) in pending;
      pending := pending - {GuestName(id)};
      id := id + 1;
    }
  }

  /** `setClientName`: fails, changing nothing, for a socket that is not live;
      otherwise records the new name, frees the old one if the directory still
      gives it to this socket, and gives the new one to this socket. On a
      consistent state with a fresh well-formed name, the directory loses
      exactly the old name, gains exactly the new one, and nothing else moves. */
  function SetClientName(st: Server, sid: Sid, newName: string): (r: (Server, bool))
    ensures r.1 <==> sid in st.clients
    ensures !r.1 ==> r.0 == st
    ensures r.1 ==> r.0.clients == st.clients[sid := newName]
    ensures r.0.accepted == st.accepted && r.0.nextId == st.nextId
    ensures r.1 ==> newName in r.0.byName && r.0.byName[newName] == sid
    ensures r.1 && Consistent(st) ==>
              r.0.byName.Keys == st.byName.Keys - {st.clients[sid]} + {newName}
    ensures r.1 && Consistent(st) ==>
              forall n :: n in st.byName && n != st.clients[sid] && n != newName ==>
                n in r.0.byName && r.0.byName[n] == st.byName[n]
    ensures r.1 && Consistent(st) && newName !in st.byName && |newName| > 0 && IsAscii(newName) ==>
              Consistent(r.0)
  {
    if sid !in st.clients then (st, false)
    else
      var previous := st.clients[sid];
      var byName := if previous != "" && previous in st.byName && st.byName[previous] == sid
                    then st.byName - {previous} else st.byName;
      (st.(clients := st.clients[sid := newName], byName := byName[newName := sid]), true)
  }

  /** Renaming a session to a free name and then back to the name it had
      restores registry and directory exactly. */
  lemma {:induction false} SetClientNameUndo(st: Server, sid: Sid, newName: string)
    requires sid in st.clients && st.clients[sid] != "" && newName != ""
    requires st.clients[sid] in st.byName && st.byName[st.clients[sid]] == sid
    requires newName !in st.byName
    ensures SetClientName(SetClientName(st, sid, newName).0, sid, st.clients[sid]).0 == st
  {
  }

  /** Registering a fresh handle under a free, well-formed name keeps
      registry and directory in agreement. */
  lemma {:induction false} RegisterConsistent(st: Server, name: string, id: nat)
    requires Consistent(st)
    requires name !in st.byName && |name| > 0 && IsAscii(name)
    ensures var sid := |st.accepted|;
            Consistent(Server(st.accepted + [name], st.clients[sid := name], st.byName[name := sid], id))
  {
  }

  /** Removing a live session together with its name keeps registry and
      directory in agreement. */
  lemma {:induction false} RemoveConsistent(st: Server, sid: Sid)
    requires Consistent(st) && sid in st.clients
    ensures Consistent(st.(clients := st.clients - {sid}, byName := st.byName - {st.clients[sid]}))
  {
  }

  /** Directory and registry have the same size, so the directory's key count
      is the number of live sessions. */
  lemma {:induction false} LiveCount(st: Server)
    requires Consistent(st)
    ensures |st.byName| == |st.clients|
    decreases |st.clients|
  {
    if st.clients != map[] {
      var s :| s in st.clients;
      var n := st.clients[s];
      var st' := st.(clients := st.clients - {s}, byName := st.byName - {n});
      RemoveConsistent(st, s);
      LiveCount(st');
      assert |st'.clients| == |st.clients| - 1;
      assert |st'.byName| == |st.byName| - 1;
    } else {
      assert forall n :: n !in st.byName;
      assert st.byName.Keys == {};
    }
  }
}

=== FILE: text.dfy ===
/** The JavaScript string primitives the relay relies on: white space as `\s` and
    `String.prototype.trim` see it, `trim`, `split` on a character, `split(/\s+/)`,
    `join` and `toLowerCase`. */
module Text {

  /** ECMAScript WhiteSpace and LineTerminator code points: the class `\s` matches
      and the set `trim` removes. */
  predicate IsSpace(c: char)
  {
    || c == ' ' || c == '\t' || c == '\n' || c == '\r'
    || c == '\U{000B}' || c == '\U{000C}' || c == '\U{00A0}' || c == '\U{1680}'
    || ('\U{2000}' <= c <= '\U{200A}')
    || c == '\U{2028}' || c == '\U{2029}' || c == '\U{202F}' || c == '\U{205F}'
    || c == '\U{3000}' || c == '\U{FEFF}'
  }

  predicate NoSpace(s: string)
  {
    forall i :: 0 <= i < |s| ==> !IsSpace(s[i])
  }

  predicate AllSpace(s: string)
  {
    forall i :: 0 <= i < |s| ==> IsSpace(s[i])
  }

  /** Neither end of `s` is white space. */
  predicate IsTrimmed(s: string)
  {
    |s| == 0 || (!IsSpace(s[0]) && !IsSpace(s[|s| - 1]))
  }

  /** A list of tokens as `split(/\s+/)` yields them from a trimmed line: each
      non-empty and free of white space. */
  predicate Words(ws: seq<string>)
  {
    forall k :: 0 <= k < |ws| ==> |ws[k]| > 0 && NoSpace(ws[k])
  }

  /** Length of the longest all-space prefix. */
  function LeadingSpace(s: string): (n: nat)
    ensures n <= |s|
    ensures AllSpace(s[..n])
    ensures n < |s| ==> !IsSpace(s[n])
  {
    if |s| > 0 && IsSpace(s[0]) then
      var m := LeadingSpace(s[1..]);
      assert forall i :: 1 <= i < 1 + m ==> s[i] == s[1..][i - 1];
      1 + m
    else 0
  }

  /** Length of the longest all-space suffix. */
  function TrailingSpace(s: string): (n: nat)
    ensures n <= |s|
    ensures AllSpace(s[|s| - n..])
    ensures n < |s| ==> !IsSpace(s[|s| - n - 1])
  {
    if |s| > 0 && IsSpace(s[|s| - 1]) then
      var p := s[..|s| - 1];
      var m := TrailingSpace(p);
      assert s[|s| - (1 + m)..] == p[|p| - m..] + [s[|s| - 1]];
      assert 1 + m < |s| ==> s[|s| - (1 + m) - 1] == p[|p| - m - 1];
      1 + m
    else 0
  }

  /** `String.prototype.trim`: the result has no blank end, keeps a non-blank
      first character, only holds characters of `s`, is empty exactly when `s`
      is blank, and is `s` itself when `s` has no blank end. */
  function Trim(s: string): (r: string)
    ensures IsTrimmed(r)
    ensures |r| <= |s|
    ensures forall c :: c in r ==> c in s
    ensures |r| == 0 <==> AllSpace(s)
    ensures |s| > 0 && !IsSpace(s[0]) ==> |r| > 0 && r[0] == s[0]
    ensures IsTrimmed(s) ==> r == s
  {
    var a := LeadingSpace(s);
    if a == |s| then
      assert s[..a] == s;
      ""
    else
      var b := TrailingSpace(s);
      assert forall k :: |s| - b <= k < |s| ==> s[k] == s[|s| - b..][k - (|s| - b)];
      assert IsTrimmed(s) ==> a == 0 && b == 0;
      assert s[0..|s|] == s;
      s[a..|s| - b]
  }

  /** No piece of `ls` holds `c`. */
  predicate Excludes(ls: seq<string>, c: char)
  {
    forall k :: 0 <= k < |ls| ==> c !in ls[k]
  }

  /** Index of the first space, or `|s|` when there is none. */
  function FirstSpace(s: string): (i: nat)
    ensures i <= |s|
    ensures NoSpace(s[..i])
    ensures i < |s| ==> IsSpace(s[i])
  {
    if |s| == 0 || IsSpace(s[0]) then 0
    else
      var m := FirstSpace(s[1..]);
      assert forall j :: 1 <= j < 1 + m ==> s[j] == s[1..][j - 1];
      1 + m
  }

  /** `s.split(/\s+/)`: the fields between maximal runs of white space, scanning
      left to right; a leading or trailing run leaves an empty field. */
  function SplitSpace(s: string): (r: seq<string>)
    ensures |r| >= 1
    ensures forall k :: 0 <= k < |r| ==> NoSpace(r[k])
    ensures |r[0]| <= |s| && r[0] == s[..|r[0]|]
    decreases |s|
  {
    var i := FirstSpace(s);
    if i == |s| then [s]
    else
      var j := i + LeadingSpace(s[i..]);
      assert s[i..][0] == s[i];
      [s[..i]] + SplitSpace(s[j..])
  }

  /** `ws.join(sep)`. */
  function Join(ws: seq<string>, sep: string): string
  {
    if |ws| == 0 then ""
    else if |ws| == 1 then ws[0]
    else ws[0] + sep + Join(ws[1..], sep)
  }

  /** Index of the first `c`, or `|s|` when there is none. */
  function IndexOf(s: string, c: char): (i: nat)
    ensures i <= |s|
    ensures c !in s[..i]
    ensures i < |s| ==> s[i] == c
  {
    if |s| == 0 || s[0] == c then 0
    else
      var m := IndexOf(s[1..], c);
      assert s[..1 + m] == [s[0]] + s[1..][..m];
      1 + m
  }

  /** `s.split(c)`: the pieces between occurrences of `c`; joining them with `c`
      gives `s` back. */
  function SplitOn(s: string, c: char): (r: seq<string>)
    ensures |r| >= 1
    ensures forall k :: 0 <= k < |r| ==> c !in r[k]
    ensures Join(r, [c]) == s
    decreases |s|
  {
    var i := IndexOf(s, c);
    if i == |s| then
      assert s[..i] == s;
      [s]
    else
      var rest := SplitOn(s[i + 1..], c);
      var r := [s[..i]] + rest;
      assert r[1..] == rest;
      assert s == s[..i] + [c] + s[i + 1..];
      r
  }

  /** `toLowerCase` on one character: ASCII capitals, and the KELVIN SIGN, which
      is the one non-ASCII character whose lower case is ASCII. */
  function LowerChar(c: char): char
  {
    if 'A' <= c <= 'Z' then (c as int + 32) as char
    else if c == '\U{212A}' then 'k'
    else c
  }

  function Lower(s: string): (r: string)
    ensures |r| == |s|
    ensures forall i :: 0 <= i < |s| ==> r[i] == LowerChar(s[i])
  {
    seq(|s|, i requires 0 <= i < |s| => LowerChar(s[i]))
  }

  // ----- Lemmas ---------------------------------------------------------------

  /** Lower-casing twice is lower-casing once. */
  lemma {:induction false} LowerIdempotent(s: string)
    ensures Lower(Lower(s)) == Lower(s)
  {
    forall i | 0 <= i < |s|
      ensures Lower(Lower(s))[i] == Lower(s)[i]
    {
      assert LowerChar(LowerChar(s[i])) == LowerChar(s[i]);
    }
  }

  /** `trim` cuts exactly a blank prefix and a blank suffix off `s`. */
  lemma {:induction false} TrimCutsBlankEnds(s: string)
    ensures exists i :: 0 <= i <= |s| - |Trim(s)| && Trim(s) == s[i..i + |Trim(s)|]
                        && AllSpace(s[..i]) && AllSpace(s[i + |Trim(s)|..])
  {
    var r := Trim(s);
    var a := LeadingSpace(s);
    if a == |s| {
      assert s[..a] == s && |r| == 0;
      assert r == s[a..a + |r|] && AllSpace(s[..a]) && AllSpace(s[a + |r|..]);
    } else {
      var b := TrailingSpace(s);
      assert r == s[a..a + |r|];
      assert s[a + |r|..] == s[|s| - b..];
      assert r == s[a..a + |r|] && AllSpace(s[..a]) && AllSpace(s[a + |r|..]);
    }
  }

  /** The first space of a token followed by nothing or by white space is
      where the token ends. */
  lemma {:induction false} FirstSpaceAfterWord(w: string, t: string)
    requires NoSpace(w) && (|t| > 0 ==> IsSpace(t[0]))
    ensures FirstSpace(w + t) == |w|
  {
    if |w| > 0 {
      assert (w + t)[1..] == w[1..] + t;
      FirstSpaceAfterWord(w[1..], t);
    } else {
      assert w + t == t;
    }
  }

  /** The first `c` in a piece followed by `c` is that `c`. */
  lemma {:induction false} IndexOfAfterPiece(w: string, c: char, t: string)
    requires c !in w
    ensures IndexOf(w + [c] + t, c) == |w|
    ensures IndexOf(w, c) == |w|
  {
    if |w| > 0 {
      assert (w + [c] + t)[1..] == w[1..] + [c] + t;
      IndexOfAfterPiece(w[1..], c, t);
    }
  }

  /** Joining tokens that have no blank end with a single space gives a
      non-empty line that has no blank end and starts like its first token. */
  lemma {:induction false} JoinWords(ws: seq<string>)
    requires |ws| >= 1 && Words(ws)
    ensures |Join(ws, " ")| > 0
    ensures Join(ws, " ")[0] == ws[0][0]
    ensures IsTrimmed(Join(ws, " "))
  {
    if |ws| > 1 {
      JoinWords(ws[1..]);
      var t := Join(ws[1..], " ");
      assert Join(ws, " ") == ws[0] + " " + t;
      assert Join(ws, " ")[|Join(ws, " ")| - 1] == t[|t| - 1];
    } else {
      assert ws[0][|ws[0]| - 1] == ws[0][|ws[0]| - 1];
    }
  }

  /** `split(/\s+/)` undoes `join(' ')` on a list of tokens: the single-space
      case of `SplitSpaceSpaced`. */
  lemma {:induction false} SplitSpaceJoin(ws: seq<string>)
    requires |ws| >= 1 && Words(ws)
    ensures SplitSpace(Join(ws, " ")) == ws
  {
    if |ws| == 1 {
      FirstSpaceAfterWord(ws[0], "");
      assert ws[0] + "" == ws[0];
    } else {
      JoinTail(ws);
      SplitSpaceStep(ws[0], " ", Join(ws[1..], " "));
      SplitSpaceJoin(ws[1..]);
      assert ws == [ws[0]] + ws[1..];
    }
  }

  /** Joining two or more tokens puts the first, one space, and the join of
      the rest, which starts with no space. */
  lemma {:induction false} JoinTail(ws: seq<string>)
    requires |ws| > 1 && Words(ws)
    ensures Words(ws[1..])
    ensures Join(ws, " ") == ws[0] + " " + Join(ws[1..], " ")
    ensures |Join(ws[1..], " ")| > 0 && !IsSpace(Join(ws[1..], " ")[0])
  {
    assert ws[1..][0] == ws[1];
    JoinWords(ws[1..]);
  }

  /** A token, a run of white space and a line that starts with no space split
      into the token followed by the fields of that line, whatever the run. */
  lemma {:induction false} SplitSpaceStep(w: string, run: string, t: string)
    requires NoSpace(w) && |run| > 0 && AllSpace(run)
    requires |t| > 0 && !IsSpace(t[0])
    ensures SplitSpace(w + run + t) == [w] + SplitSpace(t)
  {
    var s := w + run + t;
    var i := |w|;
    assert s == w + (run + t);
    FirstSpaceAfterWord(w, run + t);
    assert s[i..] == run + t;
    LeadingSpaceAppend(run, t);
    assert LeadingSpace(t) == 0;
    var j := i + LeadingSpace(s[i..]);
    assert j == i + |run|;
    assert s[j..] == t && s[..i] == w;
    assert SplitSpace(s) == [s[..i]] + SplitSpace(s[j..]);
  }

  /** An all-space prefix adds its length to the leading run. */
  lemma {:induction false} LeadingSpaceAppend(p: string, t: string)
    requires AllSpace(p)
    ensures LeadingSpace(p + t) == |p| + LeadingSpace(t)
  {
    if |p| > 0 {
      assert (p + t)[1..] == p[1..] + t;
      LeadingSpaceAppend(p[1..], t);
    } else {
      assert p + t == t;
    }
  }

  /** An all-space suffix adds its length to the trailing run. */
  lemma {:induction false} TrailingSpaceAppend(t: string, q: string)
    requires AllSpace(q)
    ensures TrailingSpace(t + q) == TrailingSpace(t) + |q|
  {
    if |q| > 0 {
      var q' := q[..|q| - 1];
      assert (t + q)[..|t + q| - 1] == t + q';
      TrailingSpaceAppend(t, q');
    } else {
      assert t + q == t;
    }
  }

  /** `trim` gives back a line that has no blank end from any white space
      around it. */
  lemma {:induction false} TrimPadded(p: string, w: string, q: string)
    requires AllSpace(p) && AllSpace(q)
    requires |w| > 0 && IsTrimmed(w)
    ensures Trim(p + w + q) == w
  {
    var s := p + w + q;
    assert s == p + (w + q);
    LeadingSpaceAppend(p, w + q);
    assert (w + q)[0] == w[0];
    TrailingSpaceAppend(p + w, q);
    assert (p + w)[|p + w| - 1] == w[|w| - 1];
    assert s[|p|..|s| - |q|] == w;
  }

  /** Runs of white space, none empty: what `split(/\s+/)` treats as one
      separator each. */
  predicate Runs(seps: seq<string>)
  {
    forall k :: 0 <= k < |seps| ==> |seps[k]| > 0 && AllSpace(seps[k])
  }

  /** Tokens with the run `seps[k]` between token `k` and token `k + 1`. */
  function Spaced(ws: seq<string>, seps: seq<string>): string
    requires |ws| >= 1 && |seps| == |ws| - 1
  {
    if |ws| == 1 then ws[0] else ws[0] + seps[0] + Spaced(ws[1..], seps[1..])
  }

  /** Tokens separated by runs of white space give a line with no blank end
      that starts like its first token. */
  lemma {:induction false} SpacedWords(ws: seq<string>, seps: seq<string>)
    requires |ws| >= 1 && |seps| == |ws| - 1
    requires Words(ws) && Runs(seps)
    ensures |Spaced(ws, seps)| > 0
    ensures Spaced(ws, seps)[0] == ws[0][0]
    ensures IsTrimmed(Spaced(ws, seps))
  {
    if |ws| > 1 {
      SpacedWords(ws[1..], seps[1..]);
      var t := Spaced(ws[1..], seps[1..]);
      assert Spaced(ws, seps) == ws[0] + seps[0] + t;
      assert Spaced(ws, seps)[|Spaced(ws, seps)| - 1] == t[|t| - 1];
    } else {
      assert ws[0][|ws[0]| - 1] == ws[0][|ws[0]| - 1];
    }
  }

  /** `split(/\s+/)` gives back the tokens whatever white space separates them. */
  lemma {:induction false} SplitSpaceSpaced(ws: seq<string>, seps: seq<string>)
    requires |ws| >= 1 && |seps| == |ws| - 1
    requires Words(ws) && Runs(seps)
    ensures SplitSpace(Spaced(ws, seps)) == ws
  {
    if |ws| == 1 {
      FirstSpaceAfterWord(ws[0], "");
      assert ws[0] + "" == ws[0];
    } else {
      var t := Spaced(ws[1..], seps[1..]);
      SpacedWords(ws[1..], seps[1..]);
      assert ws[1..][0] == ws[1];
      SplitSpaceStep(ws[0], seps[0], t);
      SplitSpaceSpaced(ws[1..], seps[1..]);
      assert ws == [ws[0]] + ws[1..];
    }
  }

  /** Every field `split(/\s+/)` yields from a non-empty trimmed string is non-empty. */
  lemma {:induction false} SplitSpaceTrimmed(s: string)
    requires |s| > 0 && IsTrimmed(s)
    ensures Words(SplitSpace(s))
    decreases |s|
  {
    var i := FirstSpace(s);
    if i == |s| {
      SplitSpaceSingle(s);
    } else {
      SplitSpaceFront(s);
      var rest := s[i + LeadingSpace(s[i..])..];
      SplitSpaceTrimmed(rest);
      WordsCons(s[..i], SplitSpace(rest));
    }
  }

  /** A non-empty trimmed string without white space is one field. */
  lemma {:induction false} SplitSpaceSingle(s: string)
    requires |s| > 0 && FirstSpace(s) == |s|
    ensures SplitSpace(s) == [s] && Words([s])
  {
    assert s[..|s|] == s;
  }

  /** A trimmed string with white space in it splits into a non-empty first
      token and the fields of a shorter trimmed rest. */
  lemma {:induction false} SplitSpaceFront(s: string)
    requires |s| > 0 && IsTrimmed(s) && FirstSpace(s) < |s|
    ensures var i := FirstSpace(s);
            var rest := s[i + LeadingSpace(s[i..])..];
            && 0 < i && NoSpace(s[..i])
            && |rest| > 0 && IsTrimmed(rest) && |rest| < |s|
            && SplitSpace(s) == [s[..i]] + SplitSpace(rest)
  {
    var i := FirstSpace(s);
    assert !IsSpace(s[0]);
    RunEndsInside(s, i);
    var j := i + LeadingSpace(s[i..]);
    var rest := s[j..];
    assert rest[0] == s[j] && rest[|rest| - 1] == s[|s| - 1];
    SplitSpaceCons(s);
  }

  /** One field off the front: the text before the first space, then the
      fields after the run of white space that starts there. */
  lemma {:induction false} SplitSpaceCons(s: string)
    requires FirstSpace(s) < |s|
    ensures var i := FirstSpace(s);
            SplitSpace(s) == [s[..i]] + SplitSpace(s[i + LeadingSpace(s[i..])..])
  {
  }

  /** A non-empty token in front of a list of tokens is a list of tokens. */
  lemma {:induction false} WordsCons(w: string, ws: seq<string>)
    requires |w| > 0 && NoSpace(w) && Words(ws)
    ensures Words([w] + ws)
  {
    assert forall k :: 0 < k < |[w] + ws| ==> ([w] + ws)[k] == ws[k - 1];
  }

  /** In a string with no blank end, a run of white space stops before the
      end, at a character that is not white space. */
  lemma {:induction false} RunEndsInside(s: string, i: nat)
    requires |s| > 0 && IsTrimmed(s) && i < |s| && IsSpace(s[i])
    ensures i + LeadingSpace(s[i..]) < |s|
    ensures !IsSpace(s[i + LeadingSpace(s[i..])])
  {
    var t := s[i..];
    assert t[|t| - 1] == s[|s| - 1];
    RunStopsBeforeEnd(t);
    assert t[LeadingSpace(t)] == s[i + LeadingSpace(t)];
  }

  /** A string whose last character is not white space has a leading run
      shorter than itself. */
  lemma {:induction false} RunStopsBeforeEnd(t: string)
    requires |t| > 0 && !IsSpace(t[|t| - 1])
    ensures LeadingSpace(t) < |t|
  {
  }

  /** `split(c)` undoes `join(c)` on pieces that do not contain `c`. */
  lemma {:induction false} SplitOnJoin(ws: seq<string>, c: char)
    requires |ws| >= 1
    requires forall k :: 0 <= k < |ws| ==> c !in ws[k]
    ensures SplitOn(Join(ws, [c]), c) == ws
  {
    var s := Join(ws, [c]);
    var w := ws[0];
    if |ws| == 1 {
      IndexOfAfterPiece(w, c, "");
    } else {
      var t := Join(ws[1..], [c]);
      assert s == w + [c] + t;
      IndexOfAfterPiece(w, c, t);
      assert s[..|w|] == w;
      assert s[|w| + 1..] == t;
      SplitOnJoin(ws[1..], c);
    }
  }

  /** A character that is in no piece and not the separator is not in the join. */
  lemma {:induction false} JoinExcludes(ws: seq<string>, sep: string, c: char)
    requires c !in sep
    requires forall k :: 0 <= k < |ws| ==> c !in ws[k]
    ensures c !in Join(ws, sep)
  {
    if |ws| > 1 {
      JoinExcludes(ws[1..], sep, c);
    }
  }
}

=== FILE: wrappers.dfy ===
/** The optional value used where the relay returns `null` or nothing. */
module Wrappers {

  datatype Option<+T> = None | Some(value: T)
}
